=== FILE: README.md ===
# Ontology ingestion and term search, modelled in Dafny

This project models the core of an ontology service built on Django.

- **Ingestion command.** It reads an OWL document as an RDF graph. For every subject typed `owl:Ontology` it gets or creates an `Ontology` row. For every returned ontology it gets or creates a `Term` row per subject typed `owl:Class`. Finally it records the `rdfs:subClassOf` parents of the terms that have none yet.
- **Entity model.** `Ontology` and `Term` are keyed by uri. Both have nullable labels and a nullable `weight` that defaults to 1.0. A `Term` refers to its ontology and to its parent term (`subClassOf`). Both references are on-delete SET_NULL: they become null when the row they name is deleted.
- **Search endpoint.** It validates the `query` parameter and filters the terms by a full-text match on uri, label and definition.

Modules:

- `Common` (common.dfy): `Option`, `Result`, and the sequence predicates `NoDuplicates` and `IsSubsequence`.
- `Rdf` (rdf.dfy): the parsed graph as a sequence of `(subject, property, value)` string triples in the graph's iteration order, the vocabulary the command queries, `subjects`, `objects` and the first-match lookups.
- `Models` (models.dfy):
  - the rows (`Ontology`, `Term`) and the database value `Db`;
  - the constraints the database enforces (`Consistent`: uri primary keys, column lengths, the `ontology` foreign key);
  - the ORM calls the command makes (`UpsertOntology`, `UpsertTerm`) and the on-delete rules;
  - the database itself, the class `Store`, whose methods update it in place.
- `IngestSpec` (ingest_spec.dfy):
  - what each step of the command does to the database, as a function of the database before it and the graph;
  - each loop is a function over a prefix of what it visits;
  - lemmas state the properties of those functions.
- `Ingest` (ingest.dfy): the command as it runs. These are loops over the graph that call `Store` methods, each proved equal to its `IngestSpec` function.
- `Views` (views.dfy): `SearchView.get` as written, and the ranking it evidently means to apply.

How the model stands for the parts of the system that are not modelled:

- The graph is an input. The HTTP fetch is an input value, the parser a function parameter, and the full-text match a predicate parameter.
- Every write returns the new database together with its outcome (`Run`). Each `get_or_create` makes its insert in its own atomic block. Nothing encloses that block, so it is a transaction of its own and a refused insert writes nothing. No transaction encloses the whole run, so a failed run keeps everything written before the error.
- `Db.order` is the order in which the database reads term rows back. The source never fixes that order, so the model takes insertion order, and every lemma about order is stated relative to it.
- `Ingest.CreateTerms` returns the number of subjects it handled. The source only prints that count.

Behaviour of the code that the model follows:

- **Term lookup.** The term `get_or_create` uses all four fields (uri, ontology, label, definition) as its lookup, not the uri alone (apps/ontologies/management/commands/ingest.py:62-67). So a stored row with the same uri but another ontology, label or definition is not found. The insert that follows violates the uri primary key (`UpsertTerm`, `CreateTermsRejectsChangedRow`). A document with two `owl:Ontology` subjects and any class therefore never ingests (`TwoOntologiesFail`). Ingesting a document again into the database a run left changes nothing and ends the same way, whether that run succeeded or failed (`IngestIdempotent`).
- **Errors.** No exception is caught. A uniqueness or length error ends the run inside the loop that raised it, and the later steps do not run (`Handle`, `IngestFailureKeepsEarlierWrites`).
- **Empty labels.** A missing title, label or definition is stored as `""`, not null, and `__str__` treats `""` like null (`OntologyName`, `TermName`).
- **Column limits.** The uri columns are URL fields with the default maximum length of 200. The labels are limited to 255 characters. An insert that exceeds either fails before the primary-key check (`Fits`, `DbError.ValueTooLong`).

## Model

| member | source | states |
|---|---|---|
| `Rdf.Subjects` | apps/ontologies/management/commands/ingest.py:25 | `graph.subjects(p, o)` yields exactly the subjects of the (s, p, o) statements, no more of them than there are statements |
| `Rdf.SubjectsDistinct` | apps/ontologies/management/commands/ingest.py:46 | in a graph (no statement twice) `subjects` never yields a subject twice, so each loop visits each subject once |
| `Rdf.Objects` | apps/ontologies/management/commands/ingest.py:80 | `graph.objects(s, p)` yields exactly the values of the (s, p, o) statements |
| `Rdf.FirstMatch` | apps/ontologies/management/commands/ingest.py:29-31 | the `for ... break` lookup stops at the first matching statement: it matches, and none before it does |
| `Rdf.FirstObjectIsHeadOfObjects` | apps/ontologies/management/commands/ingest.py:52-60 | the first-match value is the head of the list of all values, and there is none exactly when that list is empty |
| `Models.OntologyName` | apps/ontologies/models.py:18-19 | `__str__` is the label when it is non-null and non-empty, else the uri; it is empty only for an empty uri |
| `Models.TermName` | apps/ontologies/models.py:45-46 | same rule for terms |
| `Models.UpsertOntology` | apps/ontologies/management/commands/ingest.py:33-35 | get-or-create by uri: an existing row is returned unchanged and the offered label dropped; otherwise it succeeds iff the values fit the columns, creating the row with that label and weight 1.0; failure writes nothing; terms untouched; consistency kept |
| `Models.UpsertTerm` | apps/ontologies/management/commands/ingest.py:62-67 | four-field get-or-create: a row equal on all four is returned; a row with that uri differing in any is a primary-key violation (a length error if the values do not fit); a new row gets weight 1.0, not favourite, null subClassOf and is read back last; failure writes nothing; consistency kept when the ontology exists |
| `Models.OntologyDeleted` | apps/ontologies/models.py:24-30 | deleting an ontology removes that row only and keeps every other ontology row as it was; every term row stays, and the read order is unchanged |
| `Models.OntologyDeletedSetsNull` | apps/ontologies/models.py:24-30 | deleting an ontology deletes no term, nulls the `ontology` of exactly the terms that pointed at it, changes nothing else and keeps the foreign keys valid |
| `Models.TermDeleted` | apps/ontologies/models.py:34-40 | deleting a term removes that row from the table and from the read order, and touches no ontology |
| `Models.TermDeletedSetsNull` | apps/ontologies/models.py:34-40 | deleting a term removes only that row and nulls `subClassOf` of exactly the terms naming it |
| `Models.Store.GetOrCreateOntology` | apps/ontologies/management/commands/ingest.py:33-35 | updates the store in place as `UpsertOntology` specifies and keeps it consistent |
| `Models.Store.GetOrCreateTerm` | apps/ontologies/management/commands/ingest.py:62-67 | updates the store in place as `UpsertTerm` specifies and keeps it consistent |
| `Models.Store.SaveTerm` | apps/ontologies/management/commands/ingest.py:84 | `term.save()` replaces that one row and nothing else |
| `Models.Store.DeleteOntology` | apps/ontologies/models.py:24-30 | deletes in place as `OntologyDeleted` specifies, keeping the store consistent |
| `Models.Store.DeleteTerm` | apps/ontologies/models.py:34-40 | deletes in place as `TermDeleted` specifies, keeping the store consistent |
| `IngestSpec.CreateOntologiesOver` | apps/ontologies/management/commands/ingest.py:23-41 | writes no term; on success returns one row per visited subject |
| `IngestSpec.CreateOntologies` | apps/ontologies/management/commands/ingest.py:23-41 | `create_ontologies(graph)` writes no term and keeps the read order; on success it returns one row per `owl:Ontology` subject |
| `IngestSpec.CreateOntologiesStopsAtFailure` | apps/ontologies/management/commands/ingest.py:25-40 | the first database error ends the loop with the database as it was at that point |
| `IngestSpec.CreateOntologiesKeepsRows` | apps/ontologies/management/commands/ingest.py:33-35 | no existing ontology row changes; every new one is for a visited subject, labelled with its first title (or "") and weight 1.0 |
| `IngestSpec.CreateOntologiesSucceeds` | apps/ontologies/management/commands/ingest.py:25-40 | the loop succeeds iff every subject already has a row or fits the column limits |
| `IngestSpec.CreateOntologiesReturnsStored` | apps/ontologies/management/commands/ingest.py:33-40 | the k-th returned row is the stored row of the k-th subject |
| `IngestSpec.CreateOntologiesConsistent` | apps/ontologies/models.py:14-16 | the loop keeps the database consistent |
| `IngestSpec.CreateOntologiesReturnsRows` | apps/ontologies/management/commands/ingest.py:23-41 | one row per `owl:Ontology` subject in iteration order, existing ones as they were, new ones with the first title or "" |
| `IngestSpec.CreateOntologiesOverExisting` | apps/ontologies/management/commands/ingest.py:33-35 | when every subject has a row the loop writes nothing and succeeds |
| `IngestSpec.CreateOntologiesIdempotent` | apps/ontologies/management/commands/ingest.py:23-41 | running the loop again over the database it left changes nothing and ends the same way: the same rows after a success, the same error after a failure |
| `IngestSpec.CreateTermsOver` | apps/ontologies/management/commands/ingest.py:44-72 | writes no ontology, only appends to the read order, and on success counts every visited subject |
| `IngestSpec.CreateTerms` | apps/ontologies/management/commands/ingest.py:44-72 | `create_terms(graph, ontology)` writes no ontology and only appends to the read order; on success it has handled every `owl:Class` subject |
| `IngestSpec.CreateTermsStopsAtFailure` | apps/ontologies/management/commands/ingest.py:46-67 | the first database error ends the loop with the database as it was at that point |
| `IngestSpec.CreateTermsKeepsRows` | apps/ontologies/management/commands/ingest.py:49-67 | no existing term row changes; every new one is a visited subject with this ontology, first label, first definition (or ""), weight 1.0, not favourite, null subClassOf |
| `IngestSpec.AcceptedAfterPrefix` | apps/ontologies/management/commands/ingest.py:62-67 | after a successful part of the loop, a subject's get-or-create goes through exactly when it would have before that part |
| `IngestSpec.CreateTermsSucceeds` | apps/ontologies/management/commands/ingest.py:62-67 | success iff every class subject is accepted (an equal row exists, or none and it fits); on failure the error names a rejected subject, and a key violation one whose row existed before |
| `IngestSpec.CreateTermsStoresAll` | apps/ontologies/management/commands/ingest.py:62-67 | on success every class subject has a row equal on ontology, label and definition |
| `IngestSpec.CreateTermsConsistent` | apps/ontologies/models.py:22-33 | the loop keeps the database consistent when its ontology exists |
| `IngestSpec.CreateTermsRejectsChangedRow` | apps/ontologies/management/commands/ingest.py:62-67 | a class whose stored row differs in ontology, label or definition makes the loop fail |
| `IngestSpec.CreateTermsOverExisting` | apps/ontologies/management/commands/ingest.py:62-69 | when every subject has an equal row the loop writes nothing and counts them all |
| `IngestSpec.CreateTermsIdempotent` | apps/ontologies/management/commands/ingest.py:44-72 | running the loop again over the database it left changes nothing and ends the same way: every row found after a success, the same subject refused with the same error after a failure |
| `IngestSpec.TermsForEach` | apps/ontologies/management/commands/ingest.py:114-116 | `create_terms` per returned ontology writes no ontology and only appends to the read order |
| `IngestSpec.TermsForEachKeepsRows` | apps/ontologies/management/commands/ingest.py:114-116 | no existing term changes; every new term is a class subject with null subClassOf |
| `IngestSpec.TermsForEachConsistent` | apps/ontologies/management/commands/ingest.py:114-116 | the loop keeps the database consistent when every ontology it is given exists |
| `IngestSpec.TermsForEachStopsAtFailure` | apps/ontologies/management/commands/ingest.py:114-116 | the first failing `create_terms` ends the loop |
| `IngestSpec.TermsForEachStoresAll` | apps/ontologies/management/commands/ingest.py:114-116 | after a successful loop every class has a row equal on the lookup fields for each ontology given |
| `IngestSpec.TermsForEachOverExisting` | apps/ontologies/management/commands/ingest.py:114-116 | when every class already has such a row for each ontology, the loop writes nothing and succeeds |
| `IngestSpec.TermsForEachIdempotent` | apps/ontologies/management/commands/ingest.py:114-116 | running the loop again over the database it left changes nothing and ends the same way, failures included |
| `IngestSpec.Resolve` | apps/ontologies/management/commands/ingest.py:80-84 | what the pass does to one row: only `subClassOf` can change; a row with a non-null value is left alone; a null one gets the list of all its parents exactly when it has any |
| `IngestSpec.ResolveKeepsColumns` | apps/ontologies/management/commands/ingest.py:83-84 | the pass saves the row with every column but `subClassOf` as it was read: uri, ontology, label, definition, weight and favourite |
| `IngestSpec.AssignSubclasses` | apps/ontologies/management/commands/ingest.py:75-88 | only rows with null subClassOf change, and only that column; each gets the list of all its `rdfs:subClassOf` objects, or stays null when there are none; no row created or deleted; parents need not exist; consistency kept |
| `IngestSpec.AssignSubclassesIdempotent` | apps/ontologies/management/commands/ingest.py:78-84 | a second pass over an unchanged graph and database is a no-op |
| `IngestSpec.PendingRows` | apps/ontologies/management/commands/ingest.py:78 | the visited rows are exactly the stored rows with null subClassOf |
| `IngestSpec.ResolvedPrefixStep` | apps/ontologies/management/commands/ingest.py:80-84 | handling one more visited row changes that row alone |
| `IngestSpec.PendingRowsResolved` | apps/ontologies/management/commands/ingest.py:78-84 | handling exactly the visited rows one by one gives the pass's result |
| `IngestSpec.Ingest` | apps/ontologies/management/commands/ingest.py:107-118 | `handle` after the fetch and the parse: only `create_ontologies` writes ontologies, term rows are only appended to the read order, and a run succeeds only if `create_ontologies` did |
| `IngestSpec.CreatedOntologiesExist` | apps/ontologies/management/commands/ingest.py:113-116 | every ontology handed to `create_terms` has a row |
| `IngestSpec.IngestConsistent` | apps/ontologies/management/commands/ingest.py:107-118 | a run keeps the database consistent, whether it succeeds or fails |
| `IngestSpec.IngestFailureKeepsEarlierWrites` | apps/ontologies/management/commands/ingest.py:107-118 | a failed run rolls nothing back and assigns no subclass: old rows as they were, created ontologies kept, new terms with null subClassOf |
| `IngestSpec.NoOntologyNoTerms` | apps/ontologies/management/commands/ingest.py:113-118 | a document without `owl:Ontology` creates no term and only runs the subclass pass |
| `IngestSpec.TwoOntologiesFail` | apps/ontologies/management/commands/ingest.py:113-116 | two ontologies and any class: the run fails |
| `IngestSpec.SecondCreateOntologies` | apps/ontologies/management/commands/ingest.py:33-35 | after a successful run, `create_ontologies` again finds every row and writes nothing |
| `IngestSpec.AssignSubclassesKeepsLookup` | apps/ontologies/management/commands/ingest.py:83-84 | the subclass pass changes no lookup field of a term |
| `IngestSpec.IngestIdempotent` | apps/ontologies/management/commands/ingest.py:107-118 | for every document and database, ingesting again into the database a run left changes nothing and ends the same way: a failed run fails again with the same error |
| `IngestSpec.AssignSubclassesDeclared` | apps/ontologies/management/commands/ingest.py:78-84 | the pass as written against the declared foreign key (apps/ontologies/models.py:34-40): when it stops, it names a stored row with null `subClassOf` that has parents |
| `IngestSpec.FirstWithParents` | apps/ontologies/management/commands/ingest.py:80-83 | under the declared foreign key the pass stops at a visited row with parents, or finds none |
| `IngestSpec.DeclaredPassNeverAssigns` | apps/ontologies/models.py:34-40 | under the declared foreign key no parent is ever recorded: the pass fails iff some null row has parents |
| `IngestSpec.ThingGraphSubjects` | apps/ontologies/management/commands/ingest.py:25 | in the `Thing` document the ontology loop visits only the ontology and the class loop only `Thing` |
| `IngestSpec.ThingGraphLookups` | apps/ontologies/management/commands/ingest.py:49-60 | in the `Thing` document the label is "Thing", the definition and title default to "", and `Thing` has no parent |
| `IngestSpec.OneClassIngest` | apps/ontologies/management/commands/ingest.py:107-118 | one ontology and one class into an empty database: exactly one term row, with that ontology, label and definition |
| `IngestSpec.ThingExample` | apps/ontologies/management/commands/ingest.py:44-72 | the `Thing` class becomes a row with label "Thing" and definition "" |
| `IngestSpec.DogAnimalExample` | apps/ontologies/management/commands/ingest.py:78-84 | Dog gets ["Animal"], Animal stays untouched |
| `IngestSpec.DogAnimalParents` | apps/ontologies/management/commands/ingest.py:80 | in the Dog/Animal document `graph.objects` gives Dog the single parent Animal, and Animal none |
| `IngestSpec.DogAnimalDeclaredExample` | apps/ontologies/management/commands/ingest.py:83 | under the declared foreign key the pass stops at Dog |
| `Ingest.FirstValue` | apps/ontologies/management/commands/ingest.py:52-60 | the loop with `break` returns the first matching value, or "" |
| `Ingest.CreateOntologies` | apps/ontologies/management/commands/ingest.py:23-41 | leaves the store and returns what `IngestSpec.CreateOntologies` specifies, keeping it consistent |
| `Ingest.CreateTerms` | apps/ontologies/management/commands/ingest.py:44-72 | leaves the store and returns what `IngestSpec.CreateTerms` specifies, keeping it consistent |
| `Ingest.RecordParents` | apps/ontologies/management/commands/ingest.py:80-84 | a visited row gets its parent list saved when it has parents and is otherwise left alone; nothing else changes |
| `Ingest.AssignSubclasses` | apps/ontologies/management/commands/ingest.py:75-88 | leaves the store as `IngestSpec.AssignSubclasses` specifies |
| `Ingest.FormatOption` | apps/ontologies/management/commands/ingest.py:100-105 | the `--format` value is the one given on the command line, and "application/rdf+xml" when the option is absent |
| `Ingest.FetchFailure` | apps/ontologies/management/commands/ingest.py:12-13 | a failed fetch aborts with a `CommandError` whose message is the fixed text, the url, then ": " and the cause |
| `Ingest.Handle` | apps/ontologies/management/commands/ingest.py:107-118 | a fetch or parse failure aborts with nothing written; otherwise the store ends as `IngestSpec.Ingest` specifies, and the run fails iff it does, with its database error |
| `Views.Status` | apps/api/views.py:48-51 | 400 exactly for the error response, 200 for the rows |
| `Views.Rows` | apps/api/views.py:53 | the rows read back are exactly the stored rows |
| `Views.Matching` | apps/api/views.py:53-55 | the filter keeps exactly the matching rows, in order, and is empty iff none matches |
| `Views.Search` | apps/api/views.py:46-60 | missing or empty query: 400 with the fixed message; otherwise 200 with exactly the stored rows that match, in the database's order |
| `Views.NoMatchIsEmptyOk` | apps/api/views.py:53-60 | a query that matches nothing yields an empty list with success |
| `Views.StrLeqTotal` | apps/api/views.py:57 | label order is total |
| `Views.StrLeqTransitive` | apps/api/views.py:57 | label order is transitive |
| `Views.RankLeqTotal` | apps/api/views.py:57 | the ranking compares any two rows |
| `Views.RankLeqTransitive` | apps/api/views.py:57 | the ranking is transitive |
| `Views.Insert` | apps/api/views.py:57 | inserting into a ranked list gives a ranked permutation plus the row |
| `Views.Rank` | apps/api/views.py:57 | the result is ranked and a permutation of the input |
| `Views.RankedSearch` | apps/api/views.py:46-60 | same validation as `Search`; the same rows as a permutation, ranked |
| `Views.FavoritesFirst` | apps/api/views.py:57 | in a ranked list no ordinary row precedes a favourite |
| `Views.WeightsDescend` | apps/api/views.py:57 | in a ranked list weights do not increase among rows of equal favourite status |
| `Views.DiscardedOrderingExample` | apps/api/views.py:57 | ordinary weight-10 row read first, favourite weight-1 row second: `Search` lists the ordinary row first, `RankedSearch` the favourite |

## Left out

- The HTTP fetch of `load_owl_from_url` (apps/ontologies/management/commands/ingest.py:8-14) is not part of this model. `Handle` takes its outcome as an input.
- The RDF/XML or Turtle parser of `parse_ontology` (apps/ontologies/management/commands/ingest.py:17-20) is not part of this model. `Handle` takes it as a function parameter.
- Graph nodes are given by their string form. Literal datatypes, language tags and blank nodes are not distinguished.
- Progress output and the counters `term_count` and `subclass_count` are left out. They are only printed.
- The `created_at` and `updated_at` clock columns are left out.
- URL format validation is left out. Only the 200-character length of the uri columns is modelled.
- `weight` is an opaque nullable real. Nothing computes with it.
- Concurrent `get_or_create` races are left out. The model is sequential.
- The serializers, the CRUD viewsets, the URL routing, the admin pages and the deployment script are left out.
- Postgres full-text matching and relevance are left out. The match is a predicate parameter of `Search`.
- The database's read order for unordered queries is not fixed by the source. It is modelled as insertion order (`Db.order`).
- Views.Rank: the database gives no order to rows equal on all three sort keys. The model's insertion sort keeps their read order, which is one order the database may choose.
- Views.StrLeq: label comparison is by code point, as the "C" collation does. Locale collations are not modelled.

## Findings

| source | as written | input that shows it | evidently intended | confidence | as-written member | corrected member |
|---|---|---|---|---|---|---|
| apps/ontologies/models.py:34-40 | `subClassOf` is declared as a nullable foreign key to a single term, yet `assign_subclasses` assigns it a list of uri strings (apps/ontologies/management/commands/ingest.py:83); the ORM rejects a list there, so the pass stops at the first term with a parent and records nothing | the `Dog` row and the `Animal` row both with null subClassOf, and the statement (Dog, rdfs:subClassOf, Animal) | a list-valued column holding every parent uri, as the ingestion code uses it | high (not executed) | `IngestSpec.DogAnimalDeclaredExample` | `IngestSpec.AssignSubclasses` |
| apps/api/views.py:57 | `terms.order_by("is_favorite", "weight", "label")` builds an ordered query set that is never used, and its keys are all ascending; the response keeps the database's read order | two matching rows: an ordinary term of weight 10 read first, a favourite of weight 1 read second | favourites first, then weight descending, then label ascending | high (not executed) | `Views.DiscardedOrderingExample` | `Views.RankedSearch` |

=== FILE: common.dfy ===
/** Small wrappers and sequence predicates shared by the other modules. */
module Common {

  datatype Option<+T> = None | Some(value: T)

  datatype Result<+T, +E> = Success(value: T) | Failure(error: E)

  /** No element occurs twice. */
  predicate NoDuplicates<T(==)>(s: seq<T>) {
    forall i, j :: 0 <= i < j < |s| ==> s[i] != s[j]
  }

  /** `a` is `b` with some elements left out, the rest kept in order. */
  predicate IsSubsequence<T(==)>(a: seq<T>, b: seq<T>)
    decreases |b|
  {
    if a == [] then true
    else if b == [] then false
    else if a[0] == b[0] then IsSubsequence(a[1..], b[1..])
    else IsSubsequence(a, b[1..])
  }

  lemma AppendKeepsDistinct<T>(s: seq<T>, x: T)
    ensures NoDuplicates(s) && x !in s ==> NoDuplicates(s + [x])
  {
    if NoDuplicates(s) && x !in s {
      forall i, j | 0 <= i < j < |s + [x]| ensures (s + [x])[i] != (s + [x])[j] {
        if j == |s| {
          assert s[i] in s;
        }
      }
    }
  }

  lemma ConsDistinct<T>(x: T, s: seq<T>)
    ensures NoDuplicates([x] + s) <==> x !in s && NoDuplicates(s)
  {
    var t := [x] + s;
    if x !in s && NoDuplicates(s) {
      forall i, j | 0 <= i < j < |t| ensures t[i] != t[j] {
        if i == 0 {
          assert t[j] == s[j - 1];
        } else {
          assert t[i] == s[i - 1] && t[j] == s[j - 1];
        }
      }
    }
    if NoDuplicates(t) {
      forall i, j | 0 <= i < j < |s| ensures s[i] != s[j] {
        assert s[i] == t[i + 1] && s[j] == t[j + 1];
      }
      forall k | 0 <= k < |s| ensures s[k] != x {
        assert t[0] == x && t[k + 1] == s[k];
        assert t[0] != t[k + 1];
      }
    }
  }
}

=== FILE: ingest.dfy ===
/**
 * The ingestion command as it runs: loops over the parsed graph that write
 * through the database one get-or-create or save at a time. Each method is
 * proved against its counterpart in module IngestSpec, whose properties are
 * proved there.
 */
module Ingest {
  import opened Common
  import opened Rdf
  import opened Models
  import IngestSpec

  /**
   * The `for s, p, o in graph.triples((subject, property, None)): ... break`
   * lookups: the value of the first matching statement, or "" when there is
   * none.
   */
  method FirstValue(g: Graph, subject: string, property: string) returns (o: string)
    ensures o == FirstObjectOr(g, subject, property, "")
  {
    var i := 0;
    while i < |g|
      invariant 0 <= i <= |g|
      invariant forall j :: 0 <= j < i ==> !Matches(g[j], subject, property)
    {
      if g[i].s == subject && g[i].p == property {
        assert FirstMatch(g, subject, property) == i;
        return g[i].o;
      }
      i := i + 1;
    }
    return "";
  }

  /**
   * `create_ontologies(graph)`: for each owl:Ontology subject in iteration
   * order, look up its title and get-or-create its row, appending the row to
   * the result. The first database error ends the loop; rows written before
   * it stay.
   */
  method CreateOntologies(store: Store, g: Graph) returns (r: Result<seq<Ontology>, DbError>)
    requires store.Valid()
    modifies store
    ensures store.Valid()
    ensures Run(store.State(), r) == IngestSpec.CreateOntologies(old(store.State()), g)
  {
    var subjects := IngestSpec.OntologySubjects(g);
    var result := [];
    var i := 0;
    while i < |subjects|
      invariant 0 <= i <= |subjects|
      invariant store.Valid()
      invariant IngestSpec.CreateOntologiesOver(old(store.State()), g, subjects[..i]) == Run(store.State(), Success(result))
    {
      var uri := subjects[i];
      assert IngestSpec.Init(subjects[..i + 1]) == subjects[..i] && IngestSpec.Last(subjects[..i + 1]) == uri;
      var labelText := FirstValue(g, uri, DCTERMS_TITLE);
      ghost var step := UpsertOntology(store.State(), uri, IngestSpec.TitleOf(g, uri));
      assert IngestSpec.CreateOntologiesOver(old(store.State()), g, subjects[..i + 1])
          == if step.result.Failure? then Run(step.db, Failure(step.result.error))
             else Run(step.db, Success(result + [step.result.value]));
      var ontology := store.GetOrCreateOntology(uri, labelText);
      assert store.State() == step.db && ontology == step.result;
      if ontology.Failure? {
        IngestSpec.CreateOntologiesStopsAtFailure(old(store.State()), g, subjects, i + 1);
        return Failure(ontology.error);
      }
      result := result + [ontology.value];
      i := i + 1;
    }
    assert subjects[..i] == subjects;
    return Success(result);
  }

  /**
   * `create_terms(graph, ontology)`: for each owl:Class subject in iteration
   * order, look up its first label and definition and get-or-create the row
   * on all four fields. The result is the number of subjects handled; the
   * first database error ends the loop, and rows written before it stay.
   */
  method CreateTerms(store: Store, g: Graph, ontology: Ontology) returns (r: Result<nat, DbError>)
    requires store.Valid() && ontology.uri in store.ontologies
    modifies store
    ensures store.Valid()
    ensures Run(store.State(), r) == IngestSpec.CreateTerms(old(store.State()), g, ontology.uri)
  {
    var subjects := IngestSpec.ClassSubjects(g);
    var count := 0;
    var i := 0;
    while i < |subjects|
      invariant 0 <= i <= |subjects|
      invariant store.Valid() && store.ontologies == old(store.ontologies)
      invariant IngestSpec.CreateTermsOver(old(store.State()), g, ontology.uri, subjects[..i]) == Run(store.State(), Success(count))
    {
      var uri := subjects[i];
      assert IngestSpec.Init(subjects[..i + 1]) == subjects[..i] && IngestSpec.Last(subjects[..i + 1]) == uri;
      var labelText := FirstValue(g, uri, RDFS_LABEL);
      var definition := FirstValue(g, uri, IAO_DEFINITION);
      ghost var prev := store.State();
      ghost var step := UpsertTerm(prev, uri, ontology.uri, IngestSpec.LabelOf(g, uri), IngestSpec.DefinitionOf(g, uri));
      assert IngestSpec.CreateTermsOver(old(store.State()), g, ontology.uri, subjects[..i + 1])
          == if step.result.Failure? then Run(step.db, Failure(step.result.error)) else Run(step.db, Success(count + 1));
      var term := store.GetOrCreateTerm(uri, ontology.uri, labelText, definition);
      assert store.State() == step.db && term == step.result;
      if term.Failure? {
        IngestSpec.CreateTermsStopsAtFailure(old(store.State()), g, ontology.uri, subjects, i + 1);
        return Failure(term.error);
      }
      count := count + 1;
      i := i + 1;
    }
    assert subjects[..i] == subjects;
    return Success(count);
  }

  /**
   * One step of `assign_subclasses`: look up the rdfs:subClassOf objects of
   * a visited row and, when there are any, record them and save the row.
   * The row was read with a null subClassOf; the stored row is that row, or
   * that row already resolved.
   */
  method RecordParents(store: Store, g: Graph, term: Term)
    requires store.Valid() && term.uri in store.terms && term.subClassOf.None?
    requires TermRowOk(store.ontologies, term.uri, term)
    requires store.terms[term.uri] == term || store.terms[term.uri] == IngestSpec.Resolve(g, term)
    modifies store
    ensures store.Valid()
    ensures store.State() == old(store.State()).(terms := old(store.terms)[term.uri := IngestSpec.Resolve(g, term)])
  {
    var parents := IngestSpec.Parents(g, term.uri);
    if parents != [] {
      store.SaveTerm(term.(subClassOf := Some(parents)));
    } else {
      assert store.terms == store.terms[term.uri := IngestSpec.Resolve(g, term)];
    }
  }

  /**
   * `assign_subclasses(graph)`: read the rows whose subClassOf is null once,
   * then for each of them that has rdfs:subClassOf statements record the
   * list of their objects and save the row.
   */
  method AssignSubclasses(store: Store, g: Graph)
    requires store.Valid()
    modifies store
    ensures store.Valid()
    ensures store.State() == IngestSpec.AssignSubclasses(old(store.State()), g)
  {
    ghost var start := store.State();
    var pending := IngestSpec.PendingRows(store.State(), store.order);
    var i := 0;
    while i < |pending|
      invariant 0 <= i <= |pending|
      invariant store.Valid()
      invariant store.ontologies == start.ontologies && store.order == start.order
      invariant store.terms == IngestSpec.ResolvedPrefix(start, g, pending[..i])
    {
      var term := pending[i];
      assert pending[..i + 1] == pending[..i] + [term];
      assert term in pending && start.terms[term.uri] == term;
      assert TermRowOk(start.ontologies, term.uri, term);
      assert store.terms[term.uri] == term || store.terms[term.uri] == IngestSpec.Resolve(g, term);
      IngestSpec.ResolvedPrefixStep(start, g, pending[..i], term);
      RecordParents(store, g, term);
      i := i + 1;
    }
    assert pending[..i] == pending;
    IngestSpec.PendingRowsResolved(start, g);
  }

  /** How a run of the command ends when it does not complete. */
  datatype Abort =
    | CommandError(message: string)     // the document could not be fetched
    | ParseError(cause: string)         // the parser rejected the document
    | DatabaseError(error: DbError)     // a write was refused

  /** The `--format` option's default. */
  const DEFAULT_FORMAT := "application/rdf+xml"

  /** The value of the `--format` option: the one given on the command line, else the default. */
  function FormatOption(given: Option<string>): (r: string)
    ensures given.Some? ==> r == given.value
    ensures given.None? ==> r == DEFAULT_FORMAT
  {
    if given.Some? then given.value else DEFAULT_FORMAT
  }

  /** The fixed start of the message reported when the fetch fails. */
  const FETCH_PREFIX := "Failed to fetch the ontology from "

  /**
   * The `CommandError` raised when the fetch fails: the fixed text, the url,
   * then the cause after a colon and a space.
   */
  function FetchFailure(url: string, cause: string): (r: Abort)
    ensures r.CommandError?
    ensures |r.message| == |FETCH_PREFIX| + |url| + 2 + |cause|
    ensures r.message[..|FETCH_PREFIX|] == FETCH_PREFIX
    ensures r.message[|FETCH_PREFIX|..|FETCH_PREFIX| + |url|] == url
    ensures r.message[|r.message| - |cause| - 2..] == ": " + cause
  {
    CommandError(FETCH_PREFIX + url + ": " + cause)
  }

  /**
   * `Command.handle`: fetch, parse, create the ontologies, create the terms
   * of each returned ontology in turn, then assign the subclasses. The HTTP
   * fetch and the parser are not part of this model: `fetched` is what the
   * fetch produced (the body, or the cause of its failure) and `parse` stands
   * for the parser, which reads the document in the format the `--format`
   * option names (`format`, None when the option is absent). Nothing is
   * written before the graph exists; after that, an error ends the run and
   * leaves every earlier write in place.
   */
  method Handle(store: Store, url: string, format: Option<string>, fetched: Result<string, string>,
                parse: (string, string) -> Result<Graph, string>)
    returns (r: Result<(), Abort>)
    requires store.Valid()
    modifies store
    ensures store.Valid()
    ensures fetched.Failure? ==>
              r == Failure(FetchFailure(url, fetched.error)) && store.State() == old(store.State())
    ensures fetched.Success? && parse(fetched.value, FormatOption(format)).Failure? ==>
              r == Failure(ParseError(parse(fetched.value, FormatOption(format)).error)) && store.State() == old(store.State())
    ensures fetched.Success? && parse(fetched.value, FormatOption(format)).Success? ==>
              var run := IngestSpec.Ingest(old(store.State()), parse(fetched.value, FormatOption(format)).value);
              && store.State() == run.db
              && (r.Success? <==> run.result.Success?)
              && (r.Failure? ==> r.error == DatabaseError(run.result.error))
  {
    if fetched.Failure? {
      return Failure(FetchFailure(url, fetched.error));
    }
    var parsed := parse(fetched.value, FormatOption(format));
    if parsed.Failure? {
      return Failure(ParseError(parsed.error));
    }
    var g := parsed.value;
    ghost var start := store.State();
    IngestSpec.CreatedOntologiesExist(start, g);
    var ontologies := CreateOntologies(store, g);
    if ontologies.Failure? {
      assert IngestSpec.Ingest(start, g) == Run(store.State(), Failure(ontologies.error));
      return Failure(DatabaseError(ontologies.error));
    }
    var onts := ontologies.value;
    ghost var created := store.State();
    var i := 0;
    while i < |onts|
      invariant 0 <= i <= |onts|
      invariant store.Valid() && store.ontologies == created.ontologies
      invariant IngestSpec.TermsForEach(created, g, onts[..i]) == Run(store.State(), Success(()))
    {
      assert IngestSpec.Init(onts[..i + 1]) == onts[..i] && IngestSpec.Last(onts[..i + 1]) == onts[i];
      assert onts[i] in onts;
      var count := CreateTerms(store, g, onts[i]);
      if count.Failure? {
        assert IngestSpec.TermsForEach(created, g, onts[..i + 1]) == Run(store.State(), Failure(count.error));
        IngestSpec.TermsForEachStopsAtFailure(created, g, onts, i + 1);
        assert IngestSpec.Ingest(start, g) == Run(store.State(), Failure(count.error));
        return Failure(DatabaseError(count.error));
      }
      i := i + 1;
    }
    assert onts[..i] == onts;
    AssignSubclasses(store, g);
    assert IngestSpec.Ingest(start, g) == Run(store.State(), Success(()));
    return Success(());
  }
}

=== FILE: ingest_spec.dfy ===
/**
 * What the ingestion command does to the database, as functions of the
 * database before it and the parsed graph. Each loop of the command is a
 * function over a prefix of the subjects it visits, so that the imperative
 * version in module Ingest can keep "the state so far" as its invariant.
 * Writes are not wrapped in a transaction: a run that fails leaves every
 * earlier write in place, which is why each function returns the database
 * together with the outcome.
 */
module IngestSpec {
  import opened Common
  import opened Rdf
  import opened Models

  /** Label of an ontology: its first dcterms:title, else "". */
  function TitleOf(g: Graph, subject: string): string {
    FirstObjectOr(g, subject, DCTERMS_TITLE, "")
  }

  /** Label of a term: its first rdfs:label, else "". */
  function LabelOf(g: Graph, subject: string): string {
    FirstObjectOr(g, subject, RDFS_LABEL, "")
  }

  /** Definition of a term: its first IAO_0000115 annotation, else "". */
  function DefinitionOf(g: Graph, subject: string): string {
    FirstObjectOr(g, subject, IAO_DEFINITION, "")
  }

  /** Every subject typed owl:Ontology, in iteration order. */
  function OntologySubjects(g: Graph): seq<string> {
    Subjects(g, RDF_TYPE, OWL_ONTOLOGY)
  }

  /** Every subject typed owl:Class, in iteration order. */
  function ClassSubjects(g: Graph): seq<string> {
    Subjects(g, RDF_TYPE, OWL_CLASS)
  }

  /** Every rdfs:subClassOf object of `uri`, in iteration order. */
  function Parents(g: Graph, uri: string): seq<string> {
    Objects(g, uri, RDFS_SUBCLASS_OF)
  }

  function Init<T>(s: seq<T>): seq<T>
    requires s != []
  {
    s[..|s| - 1]
  }

  function Last<T>(s: seq<T>): T
    requires s != []
  {
    s[|s| - 1]
  }

  // ---------------------------------------------------------------------
  // create_ontologies

  /**
   * `create_ontologies` over the first |subjects| ontology subjects: one
   * get-or-create per subject, collecting the returned rows; the first
   * database error ends the run.
   */
  function CreateOntologiesOver(db: Db, g: Graph, subjects: seq<string>): (r: Run<seq<Ontology>>)
    decreases |subjects|
    ensures r.db.terms == db.terms && r.db.order == db.order
    ensures r.result.Success? ==> |r.result.value| == |subjects|
  {
    if subjects == [] then Run(db, Success([]))
    else
      var prev := CreateOntologiesOver(db, g, Init(subjects));
      if prev.result.Failure? then prev
      else
        var uri := Last(subjects);
        var step := UpsertOntology(prev.db, uri, TitleOf(g, uri));
        if step.result.Failure? then Run(step.db, Failure(step.result.error))
        else Run(step.db, Success(prev.result.value + [step.result.value]))
  }

  /** Once a prefix of the run has failed, the whole run ends in that failure with that database. */
  lemma {:induction false} CreateOntologiesStopsAtFailure(db: Db, g: Graph, subjects: seq<string>, k: nat)
    requires k <= |subjects|
    requires CreateOntologiesOver(db, g, subjects[..k]).result.Failure?
    ensures CreateOntologiesOver(db, g, subjects) == CreateOntologiesOver(db, g, subjects[..k])
    decreases |subjects| - k
  {
    if k < |subjects| {
      assert Init(subjects[..k + 1]) == subjects[..k];
      CreateOntologiesStopsAtFailure(db, g, subjects, k + 1);
    } else {
      assert subjects[..k] == subjects;
    }
  }

  /** `create_ontologies(graph)`. */
  function CreateOntologies(db: Db, g: Graph): (r: Run<seq<Ontology>>)
    ensures r.db.terms == db.terms && r.db.order == db.order
    ensures r.result.Success? ==> |r.result.value| == |OntologySubjects(g)|
  {
    CreateOntologiesOver(db, g, OntologySubjects(g))
  }

  /**
   * `create_ontologies` never changes an existing row, and every row it adds
   * is for a visited subject, labelled with its first title (or "") and
   * given the default weight.
   */
  lemma {:induction false} CreateOntologiesKeepsRows(db: Db, g: Graph, subjects: seq<string>)
    ensures var r := CreateOntologiesOver(db, g, subjects);
      && (forall u :: u in db.ontologies ==> u in r.db.ontologies && r.db.ontologies[u] == db.ontologies[u])
      && (forall u :: u in r.db.ontologies && u !in db.ontologies ==>
            u in subjects && r.db.ontologies[u] == NewOntology(u, TitleOf(g, u)))
  {
    if subjects != [] {
      CreateOntologiesKeepsRows(db, g, Init(subjects));
      assert subjects == Init(subjects) + [Last(subjects)];
    }
  }

  /** `create_ontologies` succeeds exactly when every subject either has a row or fits the column limits. */
  lemma {:induction false} CreateOntologiesSucceeds(db: Db, g: Graph, subjects: seq<string>)
    ensures CreateOntologiesOver(db, g, subjects).result.Success? <==>
              forall u :: u in subjects ==> u in db.ontologies || Fits(u, TitleOf(g, u))
  {
    if subjects != [] {
      CreateOntologiesSucceeds(db, g, Init(subjects));
      CreateOntologiesKeepsRows(db, g, Init(subjects));
      assert subjects == Init(subjects) + [Last(subjects)];
    }
  }

  /** On success the k-th returned row is the stored row of the k-th subject. */
  lemma {:induction false} CreateOntologiesReturnsStored(db: Db, g: Graph, subjects: seq<string>)
    ensures var r := CreateOntologiesOver(db, g, subjects);
      r.result.Success? ==>
        forall k :: 0 <= k < |subjects| ==>
          subjects[k] in r.db.ontologies && r.result.value[k] == r.db.ontologies[subjects[k]]
  {
    if subjects != [] {
      var prev := CreateOntologiesOver(db, g, Init(subjects));
      CreateOntologiesReturnsStored(db, g, Init(subjects));
      var r := CreateOntologiesOver(db, g, subjects);
      if r.result.Success? {
        var step := UpsertOntology(prev.db, Last(subjects), TitleOf(g, Last(subjects)));
        forall k | 0 <= k < |subjects|
          ensures subjects[k] in r.db.ontologies && r.result.value[k] == r.db.ontologies[subjects[k]]
        {
          if k < |subjects| - 1 {
            assert subjects[k] == Init(subjects)[k];
            CreateOntologiesKeepsRows(prev.db, g, []);
          }
        }
      }
    }
  }

  /** `create_ontologies` keeps the database consistent. */
  lemma {:induction false} CreateOntologiesConsistent(db: Db, g: Graph, subjects: seq<string>)
    requires Consistent(db)
    ensures Consistent(CreateOntologiesOver(db, g, subjects).db)
  {
    if subjects != [] {
      CreateOntologiesConsistent(db, g, Init(subjects));
    }
  }

  /**
   * The rows `create_ontologies` returns: one per ontology subject, in
   * iteration order, found or created. A row that existed is returned as it
   * was (its label is not refreshed); a created one carries the subject's
   * first title, or "" when it has none, and the default weight.
   */
  lemma CreateOntologiesReturnsRows(db: Db, g: Graph)
    requires Consistent(db)
    ensures var r := CreateOntologies(db, g); var subjects := OntologySubjects(g);
      r.result.Success? ==>
        && |r.result.value| == |subjects|
        && forall k :: 0 <= k < |subjects| ==>
             && r.result.value[k].uri == subjects[k]
             && (subjects[k] in db.ontologies ==> r.result.value[k] == db.ontologies[subjects[k]])
             && (subjects[k] !in db.ontologies ==>
                   r.result.value[k] == Ontology(subjects[k], Some(TitleOf(g, subjects[k])), Some(DEFAULT_WEIGHT)))
  {
    var subjects := OntologySubjects(g);
    var r := CreateOntologies(db, g);
    CreateOntologiesKeepsRows(db, g, subjects);
    CreateOntologiesReturnsStored(db, g, subjects);
    CreateOntologiesConsistent(db, g, subjects);
    if r.result.Success? {
      forall k | 0 <= k < |subjects| ensures r.result.value[k].uri == subjects[k] {
        assert OntologyRowOk(subjects[k], r.db.ontologies[subjects[k]]);
      }
    }
  }

  /** When every subject already has a row, the run writes nothing. */
  lemma {:induction false} CreateOntologiesOverExisting(db: Db, g: Graph, subjects: seq<string>)
    requires forall u :: u in subjects ==> u in db.ontologies
    ensures CreateOntologiesOver(db, g, subjects).db == db
    ensures CreateOntologiesOver(db, g, subjects).result.Success?
  {
    if subjects != [] {
      CreateOntologiesOverExisting(db, g, Init(subjects));
      assert Last(subjects) in subjects;
      forall u | u in Init(subjects) ensures u in subjects {
        assert subjects == Init(subjects) + [Last(subjects)];
      }
    }
  }

  /**
   * Running `create_ontologies` again over the database it left changes
   * nothing and ends the same way: with the same rows when it succeeded (each
   * is found by uri), with the same error when it failed (the rows before the
   * failing subject are found, and that subject is still missing and still
   * too long).
   */
  lemma {:induction false} CreateOntologiesIdempotent(db: Db, g: Graph, subjects: seq<string>)
    ensures var once := CreateOntologiesOver(db, g, subjects);
      CreateOntologiesOver(once.db, g, subjects) == once
  {
    var once := CreateOntologiesOver(db, g, subjects);
    if once.result.Success? {
      CreateOntologiesReturnsStored(db, g, subjects);
      forall u | u in subjects ensures u in once.db.ontologies {
        var k :| 0 <= k < |subjects| && subjects[k] == u;
      }
      CreateOntologiesOverExisting(once.db, g, subjects);
      CreateOntologiesReturnsStored(once.db, g, subjects);
      var twice := CreateOntologiesOver(once.db, g, subjects);
      assert twice.result.value == once.result.value;
    } else if subjects != [] {
      CreateOntologiesIdempotent(db, g, Init(subjects));
    }
  }

  // ---------------------------------------------------------------------
  // create_terms

  /** The get-or-create of `uri` as a term of `ontology` would go through against `db`. */
  predicate Accepted(db: Db, g: Graph, ontology: string, uri: string) {
    if uri in db.terms then SameRow(db.terms[uri], ontology, LabelOf(g, uri), DefinitionOf(g, uri))
    else Fits(uri, LabelOf(g, uri))
  }

  /**
   * `create_terms(graph, ontology)` over the first |subjects| class subjects:
   * one four-field get-or-create per subject; the result is the count of
   * subjects handled, found or created. The first database error ends it.
   */
  function CreateTermsOver(db: Db, g: Graph, ontology: string, subjects: seq<string>): (r: Run<nat>)
    decreases |subjects|
    ensures r.db.ontologies == db.ontologies
    ensures db.order <= r.db.order
    ensures r.result.Success? ==> r.result.value == |subjects|
  {
    if subjects == [] then Run(db, Success(0))
    else
      var prev := CreateTermsOver(db, g, ontology, Init(subjects));
      if prev.result.Failure? then prev
      else
        var uri := Last(subjects);
        var step := UpsertTerm(prev.db, uri, ontology, LabelOf(g, uri), DefinitionOf(g, uri));
        if step.result.Failure? then Run(step.db, Failure(step.result.error))
        else Run(step.db, Success(prev.result.value + 1))
  }

  /** Once a prefix of the run has failed, the whole run ends in that failure with that database. */
  lemma {:induction false} CreateTermsStopsAtFailure(db: Db, g: Graph, ontology: string, subjects: seq<string>, k: nat)
    requires k <= |subjects|
    requires CreateTermsOver(db, g, ontology, subjects[..k]).result.Failure?
    ensures CreateTermsOver(db, g, ontology, subjects) == CreateTermsOver(db, g, ontology, subjects[..k])
    decreases |subjects| - k
  {
    if k < |subjects| {
      assert Init(subjects[..k + 1]) == subjects[..k];
      CreateTermsStopsAtFailure(db, g, ontology, subjects, k + 1);
    } else {
      assert subjects[..k] == subjects;
    }
  }

  /** `create_terms(graph, ontology)`. */
  function CreateTerms(db: Db, g: Graph, ontology: string): (r: Run<nat>)
    ensures r.db.ontologies == db.ontologies
    ensures db.order <= r.db.order
    ensures r.result.Success? ==> r.result.value == |ClassSubjects(g)|
  {
    CreateTermsOver(db, g, ontology, ClassSubjects(g))
  }

  /**
   * `create_terms` never changes an existing row, and every row it adds is
   * for a visited subject, with this ontology, its first label and first
   * definition (or ""), the default weight, not a favourite and a null
   * subClassOf.
   */
  lemma {:induction false} CreateTermsKeepsRows(db: Db, g: Graph, ontology: string, subjects: seq<string>)
    ensures var r := CreateTermsOver(db, g, ontology, subjects);
      && (forall u :: u in db.terms ==> u in r.db.terms && r.db.terms[u] == db.terms[u])
      && (forall u :: u in r.db.terms && u !in db.terms ==>
            && u in subjects
            && Fits(u, LabelOf(g, u))
            && r.db.terms[u] == NewTerm(u, ontology, LabelOf(g, u), DefinitionOf(g, u)))
  {
    if subjects != [] {
      CreateTermsKeepsRows(db, g, ontology, Init(subjects));
      assert subjects == Init(subjects) + [Last(subjects)];
    }
  }

  /** A subject is accepted after a successful prefix of the run exactly when it was accepted before it. */
  lemma AcceptedAfterPrefix(db: Db, g: Graph, ontology: string, subjects: seq<string>, u: string)
    requires CreateTermsOver(db, g, ontology, subjects).result.Success?
    ensures Accepted(CreateTermsOver(db, g, ontology, subjects).db, g, ontology, u) <==> Accepted(db, g, ontology, u)
  {
    CreateTermsKeepsRows(db, g, ontology, subjects);
  }

  /**
   * `create_terms` succeeds exactly when every class subject is accepted: it
   * has a row equal on ontology, label and definition, or it has none and
   * fits the column limits. On failure the error names a rejected subject,
   * and a primary-key violation names one whose row existed before the run.
   */
  lemma {:induction false} CreateTermsSucceeds(db: Db, g: Graph, ontology: string, subjects: seq<string>)
    ensures var r := CreateTermsOver(db, g, ontology, subjects);
      && (r.result.Success? <==> forall u :: u in subjects ==> Accepted(db, g, ontology, u))
      && (r.result.Failure? ==>
            && r.result.error.uri in subjects
            && !Accepted(db, g, ontology, r.result.error.uri)
            && (r.result.error.UniqueViolation? ==> r.result.error.uri in db.terms))
  {
    if subjects != [] {
      var p, u := Init(subjects), Last(subjects);
      var prev := CreateTermsOver(db, g, ontology, p);
      CreateTermsSucceeds(db, g, ontology, p);
      assert subjects == p + [u];
      assert forall v :: v in subjects <==> v in p || v == u;
      var r := CreateTermsOver(db, g, ontology, subjects);
      if prev.result.Success? {
        var step := UpsertTerm(prev.db, u, ontology, LabelOf(g, u), DefinitionOf(g, u));
        assert r.result.Success? <==> step.result.Success?;
        assert step.result.Success? <==> Accepted(prev.db, g, ontology, u);
        AcceptedAfterPrefix(db, g, ontology, p, u);
        if step.result.Failure? {
          assert r.result.error == step.result.error && step.result.error.uri == u;
        }
      } else {
        assert r == prev;
      }
    }
  }

  /** On success every class subject has a row equal on ontology, label and definition. */
  lemma {:induction false} CreateTermsStoresAll(db: Db, g: Graph, ontology: string, subjects: seq<string>)
    ensures var r := CreateTermsOver(db, g, ontology, subjects);
      r.result.Success? ==>
        forall u :: u in subjects ==>
          u in r.db.terms && SameRow(r.db.terms[u], ontology, LabelOf(g, u), DefinitionOf(g, u))
  {
    if subjects != [] {
      var prev := CreateTermsOver(db, g, ontology, Init(subjects));
      CreateTermsStoresAll(db, g, ontology, Init(subjects));
      assert subjects == Init(subjects) + [Last(subjects)];
      var r := CreateTermsOver(db, g, ontology, subjects);
      if r.result.Success? {
        CreateTermsKeepsRows(prev.db, g, ontology, [Last(subjects)]);
        assert CreateTermsOver(prev.db, g, ontology, [Last(subjects)]).db == r.db by {
          assert Init([Last(subjects)]) == [];
        }
      }
    }
  }

  /** `create_terms` keeps the database consistent when its ontology has a row. */
  lemma {:induction false} CreateTermsConsistent(db: Db, g: Graph, ontology: string, subjects: seq<string>)
    requires Consistent(db) && ontology in db.ontologies
    ensures Consistent(CreateTermsOver(db, g, ontology, subjects).db)
  {
    if subjects != [] {
      CreateTermsConsistent(db, g, ontology, Init(subjects));
    }
  }

  /**
   * A term whose uri already has a row that differs in ontology, label or
   * definition (a label changed upstream, say) makes `create_terms` fail
   * instead of returning the stored row.
   */
  lemma CreateTermsRejectsChangedRow(db: Db, g: Graph, ontology: string, uri: string)
    requires uri in ClassSubjects(g) && uri in db.terms
    requires !SameRow(db.terms[uri], ontology, LabelOf(g, uri), DefinitionOf(g, uri))
    ensures CreateTerms(db, g, ontology).result.Failure?
  {
    CreateTermsSucceeds(db, g, ontology, ClassSubjects(g));
    assert !Accepted(db, g, ontology, uri);
  }

  /** When every subject already has a matching row, the run writes nothing and counts them all. */
  lemma {:induction false} CreateTermsOverExisting(db: Db, g: Graph, ontology: string, subjects: seq<string>)
    requires forall u :: u in subjects ==>
               u in db.terms && SameRow(db.terms[u], ontology, LabelOf(g, u), DefinitionOf(g, u))
    ensures CreateTermsOver(db, g, ontology, subjects) == Run(db, Success(|subjects|))
  {
    if subjects != [] {
      assert subjects == Init(subjects) + [Last(subjects)];
      CreateTermsOverExisting(db, g, ontology, Init(subjects));
    }
  }

  /**
   * Running `create_terms` again over the database it left changes nothing
   * and ends the same way: every row is found on all four fields when it
   * succeeded, and when it failed the rows before the failing subject are
   * found and that subject is refused again with the same error.
   */
  lemma {:induction false} CreateTermsIdempotent(db: Db, g: Graph, ontology: string, subjects: seq<string>)
    ensures var once := CreateTermsOver(db, g, ontology, subjects);
      CreateTermsOver(once.db, g, ontology, subjects) == once
  {
    var once := CreateTermsOver(db, g, ontology, subjects);
    if once.result.Success? {
      CreateTermsStoresAll(db, g, ontology, subjects);
      CreateTermsOverExisting(once.db, g, ontology, subjects);
    } else if subjects != [] {
      CreateTermsIdempotent(db, g, ontology, Init(subjects));
    }
  }

  /** Every class subject has a row equal on the lookup fields `create_terms` uses for `ontology`. */
  predicate ClassesStored(db: Db, g: Graph, ontology: string) {
    forall u :: u in ClassSubjects(g) ==>
      u in db.terms && SameRow(db.terms[u], ontology, LabelOf(g, u), DefinitionOf(g, u))
  }

  // ---------------------------------------------------------------------
  // the create_terms loop of handle

  /** `handle`'s loop: `create_terms` for each returned ontology in turn; the first error ends it. */
  function TermsForEach(db: Db, g: Graph, ontologies: seq<Ontology>): (r: Run<()>)
    decreases |ontologies|
    ensures r.db.ontologies == db.ontologies
    ensures db.order <= r.db.order
  {
    if ontologies == [] then Run(db, Success(()))
    else
      var prev := TermsForEach(db, g, Init(ontologies));
      if prev.result.Failure? then prev
      else
        var step := CreateTerms(prev.db, g, Last(ontologies).uri);
        if step.result.Failure? then Run(step.db, Failure(step.result.error))
        else Run(step.db, Success(()))
  }

  /** The loop never changes an existing row; every row it adds is a class subject with a null subClassOf. */
  lemma {:induction false} TermsForEachKeepsRows(db: Db, g: Graph, ontologies: seq<Ontology>)
    ensures var r := TermsForEach(db, g, ontologies);
      && (forall u :: u in db.terms ==> u in r.db.terms && r.db.terms[u] == db.terms[u])
      && (forall u :: u in r.db.terms && u !in db.terms ==> u in ClassSubjects(g) && r.db.terms[u].subClassOf.None?)
  {
    if ontologies != [] {
      var prev := TermsForEach(db, g, Init(ontologies));
      TermsForEachKeepsRows(db, g, Init(ontologies));
      CreateTermsKeepsRows(prev.db, g, Last(ontologies).uri, ClassSubjects(g));
    }
  }

  /** The loop keeps the database consistent when every ontology it is given has a row. */
  lemma {:induction false} TermsForEachConsistent(db: Db, g: Graph, ontologies: seq<Ontology>)
    requires Consistent(db) && forall o :: o in ontologies ==> o.uri in db.ontologies
    ensures Consistent(TermsForEach(db, g, ontologies).db)
  {
    if ontologies != [] {
      var prev := TermsForEach(db, g, Init(ontologies));
      assert ontologies == Init(ontologies) + [Last(ontologies)];
      TermsForEachConsistent(db, g, Init(ontologies));
      CreateTermsConsistent(prev.db, g, Last(ontologies).uri, ClassSubjects(g));
    }
  }

  /** Once a prefix of the loop has failed, the whole loop ends in that failure with that database. */
  lemma {:induction false} TermsForEachStopsAtFailure(db: Db, g: Graph, ontologies: seq<Ontology>, k: nat)
    requires k <= |ontologies|
    requires TermsForEach(db, g, ontologies[..k]).result.Failure?
    ensures TermsForEach(db, g, ontologies) == TermsForEach(db, g, ontologies[..k])
    decreases |ontologies| - k
  {
    if k < |ontologies| {
      assert Init(ontologies[..k + 1]) == ontologies[..k];
      TermsForEachStopsAtFailure(db, g, ontologies, k + 1);
    } else {
      assert ontologies[..k] == ontologies;
    }
  }

  /** When the loop succeeds, every class has a row matching each ontology it was given. */
  lemma {:induction false} TermsForEachStoresAll(db: Db, g: Graph, ontologies: seq<Ontology>)
    ensures var r := TermsForEach(db, g, ontologies);
      r.result.Success? ==> forall o :: o in ontologies ==> ClassesStored(r.db, g, o.uri)
  {
    if ontologies != [] {
      var prev := TermsForEach(db, g, Init(ontologies));
      var r := TermsForEach(db, g, ontologies);
      TermsForEachStoresAll(db, g, Init(ontologies));
      if r.result.Success? {
        var classes := ClassSubjects(g);
        CreateTermsStoresAll(prev.db, g, Last(ontologies).uri, classes);
        CreateTermsKeepsRows(prev.db, g, Last(ontologies).uri, classes);
        assert ontologies == Init(ontologies) + [Last(ontologies)];
        forall o | o in ontologies ensures ClassesStored(r.db, g, o.uri) {
          if o in Init(ontologies) {
            assert ClassesStored(prev.db, g, o.uri);
          }
        }
      }
    }
  }

  /** When every class already has a matching row for each ontology, the loop writes nothing. */
  lemma {:induction false} TermsForEachOverExisting(db: Db, g: Graph, ontologies: seq<Ontology>)
    requires forall o :: o in ontologies ==> ClassesStored(db, g, o.uri)
    ensures TermsForEach(db, g, ontologies) == Run(db, Success(()))
  {
    if ontologies != [] {
      assert ontologies == Init(ontologies) + [Last(ontologies)];
      TermsForEachOverExisting(db, g, Init(ontologies));
      assert ClassesStored(db, g, Last(ontologies).uri);
      CreateTermsOverExisting(db, g, Last(ontologies).uri, ClassSubjects(g));
    }
  }

  /**
   * Running the loop again over the database it left changes nothing and
   * ends the same way: when it failed in the `create_terms` of some ontology,
   * the ontologies before it find all their rows, and that `create_terms`
   * fails again with the same error.
   */
  lemma {:induction false} TermsForEachIdempotent(db: Db, g: Graph, ontologies: seq<Ontology>)
    ensures var once := TermsForEach(db, g, ontologies);
      TermsForEach(once.db, g, ontologies) == once
  {
    var once := TermsForEach(db, g, ontologies);
    if once.result.Success? {
      TermsForEachStoresAll(db, g, ontologies);
      TermsForEachOverExisting(once.db, g, ontologies);
    } else if ontologies != [] {
      var prev := TermsForEach(db, g, Init(ontologies));
      TermsForEachIdempotent(db, g, Init(ontologies));
      if prev.result.Success? {
        var last := Last(ontologies).uri;
        var step := CreateTerms(prev.db, g, last);
        TermsForEachStoresAll(db, g, Init(ontologies));
        CreateTermsKeepsRows(prev.db, g, last, ClassSubjects(g));
        forall o | o in Init(ontologies) ensures ClassesStored(step.db, g, o.uri) {
          assert ClassesStored(prev.db, g, o.uri);
        }
        TermsForEachOverExisting(step.db, g, Init(ontologies));
        CreateTermsIdempotent(prev.db, g, last, ClassSubjects(g));
      }
    }
  }

  // ---------------------------------------------------------------------
  // assign_subclasses

  /**
   * What `assign_subclasses` does to one row: a row whose subClassOf is null
   * gets the list of all its rdfs:subClassOf objects, when that list is not
   * empty; any other row is left as it is.
   */
  function Resolve(g: Graph, t: Term): (r: Term)
    ensures t.subClassOf.Some? ==> r == t
    ensures t.subClassOf.None? ==> (r.subClassOf.Some? <==> Parents(g, t.uri) != [])
    ensures r.subClassOf.Some? && t.subClassOf.None? ==> r.subClassOf.value == Parents(g, t.uri)
  {
    var parents := Parents(g, t.uri);
    if t.subClassOf.None? && parents != [] then t.(subClassOf := Some(parents)) else t
  }

  /** The pass changes no column of a row but `subClassOf`. */
  lemma ResolveKeepsColumns(g: Graph, t: Term)
    ensures var r := Resolve(g, t);
      && r.uri == t.uri && r.ontology == t.ontology && r.labelText == t.labelText
      && r.definition == t.definition && r.weight == t.weight && r.isFavorite == t.isFavorite
  {
  }

  /**
   * `assign_subclasses(graph)`: the second pass over the rows whose
   * subClassOf is null. It creates and deletes nothing, touches no other
   * column and no ontology, and does not check that the parent uris it
   * records name existing terms.
   */
  function AssignSubclasses(db: Db, g: Graph): (d: Db)
    ensures d.ontologies == db.ontologies && d.order == db.order
    ensures d.terms.Keys == db.terms.Keys
    ensures forall u :: u in db.terms && db.terms[u].subClassOf.Some? ==> d.terms[u] == db.terms[u]
    ensures forall u :: u in db.terms && db.terms[u].subClassOf.None? ==>
              d.terms[u] == db.terms[u].(subClassOf := d.terms[u].subClassOf)
    ensures forall u :: u in db.terms && db.terms[u].subClassOf.None? && db.terms[u].uri == u ==>
              d.terms[u].subClassOf == (if Parents(g, u) == [] then None else Some(Parents(g, u)))
    ensures Consistent(db) ==> Consistent(d)
  {
    db.(terms := map u | u in db.terms :: Resolve(g, db.terms[u]))
  }

  /** A second pass over an unchanged graph and database is a no-op. */
  lemma AssignSubclassesIdempotent(db: Db, g: Graph)
    ensures AssignSubclasses(AssignSubclasses(db, g), g) == AssignSubclasses(db, g)
  {
    var once := AssignSubclasses(db, g);
    var twice := AssignSubclasses(once, g);
    assert twice.terms == once.terms by {
      forall u | u in once.terms ensures twice.terms[u] == once.terms[u] {
        var t := db.terms[u];
        if t.subClassOf.None? && Parents(g, t.uri) != [] {
          assert once.terms[u].subClassOf.Some?;
        }
      }
    }
  }

  /**
   * The rows `assign_subclasses` visits: those whose subClassOf is null,
   * read once before the pass, in the database's order.
   */
  function PendingRows(db: Db, keys: seq<string>): (r: seq<Term>)
    ensures forall t :: t in r ==> t.uri in keys && t.uri in db.terms && db.terms[t.uri] == t && t.subClassOf.None?
    ensures Consistent(db) ==>
              forall u :: u in keys && u in db.terms && db.terms[u].subClassOf.None? ==> db.terms[u] in r
  {
    if keys == [] then []
    else
      var u := keys[0];
      var rest := PendingRows(db, keys[1..]);
      if u in db.terms && db.terms[u].subClassOf.None? && db.terms[u].uri == u then [db.terms[u]] + rest
      else rest
  }

  /** The term rows once the pass has handled `rows`: those resolved, every other as in `db`. */
  function ResolvedPrefix(db: Db, g: Graph, rows: seq<Term>): map<string, Term> {
    map u | u in db.terms :: if db.terms[u] in rows then Resolve(g, db.terms[u]) else db.terms[u]
  }

  /** Handling one more stored row changes that row alone. */
  lemma ResolvedPrefixStep(db: Db, g: Graph, rows: seq<Term>, t: Term)
    requires Consistent(db) && t.uri in db.terms && db.terms[t.uri] == t
    ensures ResolvedPrefix(db, g, rows + [t]) == ResolvedPrefix(db, g, rows)[t.uri := Resolve(g, t)]
  {
    var after := ResolvedPrefix(db, g, rows + [t]);
    var before := ResolvedPrefix(db, g, rows)[t.uri := Resolve(g, t)];
    forall u | u in db.terms ensures after[u] == before[u] {
      if u != t.uri {
        assert TermRowOk(db.ontologies, u, db.terms[u]);
        assert db.terms[u] != t;
      }
    }
  }

  /** Handling exactly the pending rows, one by one, gives the state `assign_subclasses` specifies. */
  lemma PendingRowsResolved(db: Db, g: Graph)
    requires Consistent(db)
    ensures db.(terms := ResolvedPrefix(db, g, PendingRows(db, db.order))) == AssignSubclasses(db, g)
  {
    var pending := PendingRows(db, db.order);
    var terms := ResolvedPrefix(db, g, pending);
    var resolved := map u | u in db.terms :: Resolve(g, db.terms[u]);
    forall u | u in terms ensures terms[u] == resolved[u] {
      if db.terms[u].subClassOf.None? {
        assert db.terms[u] in pending;
      }
    }
    assert terms == resolved;
  }

  // ---------------------------------------------------------------------
  // handle

  /**
   * `handle` after the fetch and the parse: create the ontologies, create the
   * terms for each of them, and only when all of that has succeeded, assign
   * the subclasses. An error ends the run where it happens and keeps what
   * was written before it.
   */
  function Ingest(db: Db, g: Graph): (r: Run<()>)
    ensures r.db.ontologies == CreateOntologies(db, g).db.ontologies
    ensures db.order <= r.db.order
    ensures r.result.Success? ==> CreateOntologies(db, g).result.Success?
  {
    var created := CreateOntologies(db, g);
    if created.result.Failure? then Run(created.db, Failure(created.result.error))
    else
      var filled := TermsForEach(created.db, g, created.result.value);
      if filled.result.Failure? then filled
      else Run(AssignSubclasses(filled.db, g), Success(()))
  }

  /** Every ontology `create_ontologies` returns has a row. */
  lemma CreatedOntologiesExist(db: Db, g: Graph)
    requires Consistent(db)
    ensures var r := CreateOntologies(db, g);
      r.result.Success? ==> forall o :: o in r.result.value ==> o.uri in r.db.ontologies
  {
    var r := CreateOntologies(db, g);
    CreateOntologiesReturnsRows(db, g);
    CreateOntologiesReturnsStored(db, g, OntologySubjects(g));
    if r.result.Success? {
      forall o | o in r.result.value ensures o.uri in r.db.ontologies {
        var k :| 0 <= k < |r.result.value| && r.result.value[k] == o;
      }
    }
  }

  /** Ingestion keeps the database consistent, whether it succeeds or not. */
  lemma IngestConsistent(db: Db, g: Graph)
    requires Consistent(db)
    ensures Consistent(Ingest(db, g).db)
  {
    var created := CreateOntologies(db, g);
    CreateOntologiesConsistent(db, g, OntologySubjects(g));
    CreatedOntologiesExist(db, g);
    if created.result.Success? {
      TermsForEachConsistent(created.db, g, created.result.value);
    }
  }

  /**
   * A failed run assigns no subclasses and rolls nothing back: every row that
   * existed is as it was, the ontologies `create_ontologies` wrote remain,
   * and every term written before the error remains with a null subClassOf.
   */
  lemma IngestFailureKeepsEarlierWrites(db: Db, g: Graph)
    requires Ingest(db, g).result.Failure?
    ensures var r := Ingest(db, g);
      && r.db.ontologies == CreateOntologies(db, g).db.ontologies
      && (forall u :: u in db.ontologies ==> u in r.db.ontologies && r.db.ontologies[u] == db.ontologies[u])
      && (forall u :: u in db.terms ==> u in r.db.terms && r.db.terms[u] == db.terms[u])
      && (forall u :: u in r.db.terms && u !in db.terms ==> r.db.terms[u].subClassOf.None?)
  {
    var created := CreateOntologies(db, g);
    CreateOntologiesKeepsRows(db, g, OntologySubjects(g));
    if created.result.Success? {
      TermsForEachKeepsRows(created.db, g, created.result.value);
    }
  }

  /**
   * A document that declares no owl:Ontology creates no term: `handle` only
   * runs `create_terms` once per ontology.
   */
  lemma NoOntologyNoTerms(db: Db, g: Graph)
    requires OntologySubjects(g) == []
    ensures Ingest(db, g) == Run(AssignSubclasses(db, g), Success(()))
  {
  }

  /**
   * A document that declares two owl:Ontology subjects and at least one
   * owl:Class never ingests: `handle` runs `create_terms` again for the
   * second ontology, and the four-field lookup then misses the rows the first
   * pass wrote with the first ontology.
   */
  lemma TwoOntologiesFail(db: Db, g: Graph)
    requires Consistent(db) && WellFormed(g)
    requires |OntologySubjects(g)| >= 2 && ClassSubjects(g) != []
    ensures Ingest(db, g).result.Failure?
  {
    var created := CreateOntologies(db, g);
    if created.result.Success? {
      var onts := created.result.value;
      var subjects := OntologySubjects(g);
      SubjectsDistinct(g, RDF_TYPE, OWL_ONTOLOGY);
      CreateOntologiesReturnsRows(db, g);
      assert onts[0].uri == subjects[0] && onts[1].uri == subjects[1];
      var first := TermsForEach(created.db, g, onts[..1]);
      assert Init(onts[..1]) == [] && Last(onts[..1]) == onts[0];
      if first.result.Failure? {
        TermsForEachStopsAtFailure(created.db, g, onts, 1);
      } else {
        var classes := ClassSubjects(g);
        var c := classes[0];
        CreateTermsStoresAll(created.db, g, onts[0].uri, classes);
        assert TermsForEach(created.db, g, Init(onts[..1])) == Run(created.db, Success(()));
        assert first.db == CreateTerms(created.db, g, onts[0].uri).db;
        assert c in classes;
        assert first.db.terms[c].ontology == Some(onts[0].uri);
        assert !Accepted(first.db, g, onts[1].uri, c);
        CreateTermsSucceeds(first.db, g, onts[1].uri, classes);
        assert Init(onts[..2]) == onts[..1] && Last(onts[..2]) == onts[1];
        TermsForEachStopsAtFailure(created.db, g, onts, 2);
      }
    }
  }

  /** The second run of `create_ontologies` finds every row the first one returned, and writes nothing. */
  lemma SecondCreateOntologies(db: Db, g: Graph, later: Db)
    requires CreateOntologies(db, g).result.Success?
    requires later.ontologies == CreateOntologies(db, g).db.ontologies
    ensures CreateOntologies(later, g) == Run(later, CreateOntologies(db, g).result)
  {
    var subjects := OntologySubjects(g);
    var created := CreateOntologies(db, g);
    CreateOntologiesReturnsStored(db, g, subjects);
    forall u | u in subjects ensures u in later.ontologies {
      var k :| 0 <= k < |subjects| && subjects[k] == u;
    }
    CreateOntologiesOverExisting(later, g, subjects);
    CreateOntologiesReturnsStored(later, g, subjects);
    var second := CreateOntologies(later, g);
    forall k | 0 <= k < |subjects| ensures second.result.value[k] == created.result.value[k] {
    }
    assert second.result.value == created.result.value;
  }

  /** The subclass pass leaves ontology, label and definition of every row as they were. */
  lemma AssignSubclassesKeepsLookup(db: Db, g: Graph, ontology: string, subjects: seq<string>)
    requires forall u :: u in subjects ==>
               u in db.terms && SameRow(db.terms[u], ontology, LabelOf(g, u), DefinitionOf(g, u))
    ensures var d := AssignSubclasses(db, g);
      forall u :: u in subjects ==>
        u in d.terms && SameRow(d.terms[u], ontology, LabelOf(g, u), DefinitionOf(g, u))
  {
  }

  /**
   * Ingesting the same document again into the database the first run left
   * changes nothing and ends the same way. A run that failed fails again at
   * the same subject with the same error: the rows written before it are
   * found, and the row that was refused has not changed. A run that
   * succeeded finds every row, and its subclass pass has nothing left to do.
   */
  lemma IngestIdempotent(db: Db, g: Graph)
    ensures var once := Ingest(db, g);
      Ingest(once.db, g) == once
  {
    var created := CreateOntologies(db, g);
    var once := Ingest(db, g);
    CreateOntologiesIdempotent(db, g, OntologySubjects(g));
    if created.result.Success? {
      var onts := created.result.value;
      var filled := TermsForEach(created.db, g, onts);
      SecondCreateOntologies(db, g, once.db);
      if filled.result.Failure? {
        TermsForEachIdempotent(created.db, g, onts);
      } else {
        TermsForEachStoresAll(created.db, g, onts);
        forall o | o in onts ensures ClassesStored(once.db, g, o.uri) {
          AssignSubclassesKeepsLookup(filled.db, g, o.uri, ClassSubjects(g));
        }
        TermsForEachOverExisting(once.db, g, onts);
        AssignSubclassesIdempotent(filled.db, g);
      }
    }
  }

  // ---------------------------------------------------------------------
  // assign_subclasses against the declared schema

  /**
   * `assign_subclasses` as the schema declares subClassOf: a foreign key
   * accepts only a term instance or null, so assigning the list of parent
   * uris raises a ValueError before anything is saved. The pass stops at the
   * first visited row that has an rdfs:subClassOf statement; the result names
   * that row, or is None when the pass completes.
   */
  function AssignSubclassesDeclared(db: Db, g: Graph): (r: Option<string>)
    ensures r.Some? ==> r.value in db.terms && db.terms[r.value].subClassOf.None? && Parents(g, r.value) != []
  {
    FirstWithParents(g, PendingRows(db, db.order))
  }

  function FirstWithParents(g: Graph, rows: seq<Term>): (r: Option<string>)
    ensures r.Some? ==> exists t :: t in rows && t.uri == r.value && Parents(g, t.uri) != []
    ensures r.None? ==> forall t :: t in rows ==> Parents(g, t.uri) == []
  {
    if rows == [] then None
    else if Parents(g, rows[0].uri) != [] then Some(rows[0].uri)
    else FirstWithParents(g, rows[1..])
  }

  /**
   * Under the declared foreign key the pass never records a parent: it either
   * fails on a row that has one, or it finds none and then the list-valued
   * pass would not have changed anything either.
   */
  lemma DeclaredPassNeverAssigns(db: Db, g: Graph)
    requires Consistent(db)
    ensures AssignSubclassesDeclared(db, g).None? ==> AssignSubclasses(db, g) == db
    ensures (exists u :: u in db.terms && db.terms[u].subClassOf.None? && Parents(g, u) != []) ==>
              AssignSubclassesDeclared(db, g).Some?
  {
    var rows := PendingRows(db, db.order);
    if AssignSubclassesDeclared(db, g).None? {
      var d := AssignSubclasses(db, g);
      assert d.terms == db.terms by {
        forall u | u in db.terms ensures d.terms[u] == db.terms[u] {
          if db.terms[u].subClassOf.None? {
            assert db.terms[u] in rows;
          }
        }
      }
    }
    if exists u :: u in db.terms && db.terms[u].subClassOf.None? && Parents(g, u) != [] {
      var u :| u in db.terms && db.terms[u].subClassOf.None? && Parents(g, u) != [];
      assert db.terms[u] in rows;
    }
  }

  // ---------------------------------------------------------------------
  // Worked examples

  /** A document with one ontology and a class `Thing` labelled "Thing", without a definition. */
  function ThingGraph(): Graph {
    var onto := "http://example.org/onto";
    var thing := "http://example.org/Thing";
    [Triple(onto, RDF_TYPE, OWL_ONTOLOGY), Triple(thing, RDF_TYPE, OWL_CLASS), Triple(thing, RDFS_LABEL, "Thing")]
  }

  /** The subjects the command's loops visit in that document. */
  lemma ThingGraphSubjects()
    ensures OntologySubjects(ThingGraph()) == ["http://example.org/onto"]
    ensures ClassSubjects(ThingGraph()) == ["http://example.org/Thing"]
  {
    var g := ThingGraph();
    var t2, t3 := g[1], g[2];
    assert g[1..] == [t2, t3] && [t2, t3][1..] == [t3] && [t3][1..] == [];
    assert Subjects([t3], RDF_TYPE, OWL_ONTOLOGY) == [] && Subjects([t3], RDF_TYPE, OWL_CLASS) == [];
    assert Subjects([t2, t3], RDF_TYPE, OWL_ONTOLOGY) == [];
    assert Subjects([t2, t3], RDF_TYPE, OWL_CLASS) == ["http://example.org/Thing"];
  }

  /** The values the command's lookups read from that document. */
  lemma ThingGraphLookups()
    ensures TitleOf(ThingGraph(), "http://example.org/onto") == ""
    ensures LabelOf(ThingGraph(), "http://example.org/Thing") == "Thing"
    ensures DefinitionOf(ThingGraph(), "http://example.org/Thing") == ""
    ensures Parents(ThingGraph(), "http://example.org/Thing") == []
  {
    var thing := "http://example.org/Thing";
    var g := ThingGraph();
    var t2, t3 := g[1], g[2];
    assert g[1..] == [t2, t3] && [t2, t3][1..] == [t3] && [t3][1..] == [];
    assert FirstMatch(g, "http://example.org/onto", DCTERMS_TITLE) == 3;
    assert FirstMatch(g, thing, RDFS_LABEL) == 2;
    assert FirstMatch(g, thing, IAO_DEFINITION) == 3;
    assert Objects([t3], thing, RDFS_SUBCLASS_OF) == [];
    assert Objects([t2, t3], thing, RDFS_SUBCLASS_OF) == [];
  }

  /**
   * A document with exactly one ontology and one class, both within the
   * column limits, ingested into an empty database gives exactly one term
   * row: the class, filed under that ontology, with its label and
   * definition, and its parents when it has any.
   */
  lemma OneClassIngest(g: Graph, onto: string, thing: string)
    requires OntologySubjects(g) == [onto] && ClassSubjects(g) == [thing]
    requires Fits(onto, TitleOf(g, onto)) && Fits(thing, LabelOf(g, thing))
    ensures var r := Ingest(Db(map[], map[], []), g);
      && r.result.Success?
      && r.db.terms.Keys == {thing}
      && r.db.terms[thing] == Resolve(g, NewTerm(thing, onto, LabelOf(g, thing), DefinitionOf(g, thing)))
  {
    var db := Db(map[], map[], []);
    var o := NewOntology(onto, TitleOf(g, onto));
    var t := NewTerm(thing, onto, LabelOf(g, thing), DefinitionOf(g, thing));
    assert Init([onto]) == [] && Last([onto]) == onto;
    assert CreateOntologiesOver(db, g, []) == Run(db, Success([]));
    assert UpsertOntology(db, onto, TitleOf(g, onto)) == Run(db.(ontologies := map[onto := o]), Success(o));
    assert [] + [o] == [o];
    assert CreateOntologiesOver(db, g, [onto]) == Run(db.(ontologies := map[onto := o]), Success([o]));
    var created := CreateOntologies(db, g);
    assert Init([o]) == [] && Last([o]) == o;
    assert Init([thing]) == [] && Last([thing]) == thing;
    var filled := TermsForEach(created.db, g, [o]);
    assert CreateTermsOver(created.db, g, onto, []) == Run(created.db, Success(0));
    assert [] + [thing] == [thing];
    assert UpsertTerm(created.db, thing, onto, LabelOf(g, thing), DefinitionOf(g, thing))
        == Run(created.db.(terms := map[thing := t], order := [thing]), Success(t));
    assert CreateTerms(created.db, g, onto) == Run(created.db.(terms := map[thing := t], order := [thing]), Success(1));
    assert TermsForEach(created.db, g, []) == Run(created.db, Success(()));
    assert filled == Run(created.db.(terms := map[thing := t], order := [thing]), Success(()));
  }

  /**
   * Ingested into an empty database, that document gives one term row: that
   * uri, that ontology, label "Thing", definition "".
   */
  lemma ThingExample()
    ensures var r := Ingest(Db(map[], map[], []), ThingGraph());
      && r.result.Success?
      && r.db.terms.Keys == {"http://example.org/Thing"}
      && r.db.terms["http://example.org/Thing"] == NewTerm("http://example.org/Thing", "http://example.org/onto", "Thing", "")
  {
    ThingGraphSubjects();
    ThingGraphLookups();
    OneClassIngest(ThingGraph(), "http://example.org/onto", "http://example.org/Thing");
  }

  /** Two class rows, `Dog` and `Animal`, both with a null subClassOf, read Animal first. */
  function DogAnimalDb(): Db {
    var dog := "http://example.org/Dog";
    var animal := "http://example.org/Animal";
    Db(map[], map[dog := Term(dog, None, None, None, None, Some(DEFAULT_WEIGHT), false),
                  animal := Term(animal, None, None, None, None, Some(DEFAULT_WEIGHT), false)],
       [animal, dog])
  }

  /** A document in which `Dog` is an rdfs:subClassOf `Animal`. */
  function DogAnimalGraph(): Graph {
    var dog := "http://example.org/Dog";
    var animal := "http://example.org/Animal";
    [Triple(dog, RDF_TYPE, OWL_CLASS), Triple(animal, RDF_TYPE, OWL_CLASS), Triple(dog, RDFS_SUBCLASS_OF, animal)]
  }

  /** In that document Dog's only parent is Animal, and Animal has none. */
  lemma DogAnimalParents()
    ensures Parents(DogAnimalGraph(), "http://example.org/Dog") == ["http://example.org/Animal"]
    ensures Parents(DogAnimalGraph(), "http://example.org/Animal") == []
  {
    var dog := "http://example.org/Dog";
    var animal := "http://example.org/Animal";
    var g := DogAnimalGraph();
    assert g[1..] == [g[1], g[2]] && [g[1], g[2]][1..] == [g[2]] && [g[2]][1..] == [];
    assert RDF_TYPE[18] != RDFS_SUBCLASS_OF[18];
    assert Objects([g[2]], dog, RDFS_SUBCLASS_OF) == [animal] && Objects([g[2]], animal, RDFS_SUBCLASS_OF) == [];
    assert Objects([g[1], g[2]], dog, RDFS_SUBCLASS_OF) == [animal];
    assert Objects([g[1], g[2]], animal, RDFS_SUBCLASS_OF) == [];
  }

  /** The pass as the code reads it records ["Animal"] for Dog and leaves Animal null. */
  lemma DogAnimalExample()
    ensures var d := AssignSubclasses(DogAnimalDb(), DogAnimalGraph());
      && d.terms["http://example.org/Dog"].subClassOf == Some(["http://example.org/Animal"])
      && d.terms["http://example.org/Animal"] == DogAnimalDb().terms["http://example.org/Animal"]
  {
    DogAnimalParents();
  }

  /** Under the declared foreign key the same pass stops at Dog. */
  lemma DogAnimalDeclaredExample()
    ensures AssignSubclassesDeclared(DogAnimalDb(), DogAnimalGraph()) == Some("http://example.org/Dog")
  {
    var dog := "http://example.org/Dog";
    var animal := "http://example.org/Animal";
    var db := DogAnimalDb();
    DogAnimalParents();
    assert db.order[1..] == [dog] && [dog][1..] == [];
    assert PendingRows(db, [dog]) == [db.terms[dog]];
    assert PendingRows(db, db.order) == [db.terms[animal], db.terms[dog]];
  }
}

=== FILE: models.dfy ===
/**
 * The persisted entity model: ontologies and terms keyed by uri, the
 * constraints the database enforces on them, the ORM operations the
 * ingestion command uses (get-or-create, save) and the on-delete rules.
 * The database itself is the class `Store`; `Db` is its value.
 */
module Models {
  import opened Common

  /** Default of the nullable `weight` column of both tables. */
  const DEFAULT_WEIGHT: real := 1.0
  /** `label` (here `labelText`, since `label` is a Dafny keyword) is a varchar(255) in both tables. */
  const LABEL_MAX_LENGTH: nat := 255
  /** `uri` is a URL column, whose default maximum length is 200. */
  const URI_MAX_LENGTH: nat := 200

  datatype Ontology = Ontology(uri: string, labelText: Option<string>, weight: Option<real>)

  /**
   * A term row. `subClassOf` is declared as a nullable foreign key to another
   * term, but the ingestion command stores the list of parent uris in it;
   * the model follows that use (see IngestSpec.AssignSubclassesDeclared).
   */
  datatype Term = Term(
    uri: string,
    ontology: Option<string>,
    labelText: Option<string>,
    definition: Option<string>,
    subClassOf: Option<seq<string>>,
    weight: Option<real>,
    isFavorite: bool)

  /** Python's `label or uri`: null and the empty string are both false. */
  function LabelOr(labelText: Option<string>, uri: string): string {
    if labelText.Some? && labelText.value != "" then labelText.value else uri
  }

  /** `Ontology.__str__`. */
  function OntologyName(o: Ontology): (r: string)
    ensures o.labelText.Some? && o.labelText.value != "" ==> r == o.labelText.value
    ensures o.labelText.None? || o.labelText.value == "" ==> r == o.uri
    ensures r == "" ==> o.uri == ""
  {
    LabelOr(o.labelText, o.uri)
  }

  /** `Term.__str__`. */
  function TermName(t: Term): (r: string)
    ensures t.labelText.Some? && t.labelText.value != "" ==> r == t.labelText.value
    ensures t.labelText.None? || t.labelText.value == "" ==> r == t.uri
    ensures r == "" ==> t.uri == ""
  {
    LabelOr(t.labelText, t.uri)
  }

  /** The database: both tables keyed by primary key, and the order in which term rows are read back. */
  datatype Db = Db(ontologies: map<string, Ontology>, terms: map<string, Term>, order: seq<string>)

  datatype DbError =
    | ValueTooLong(uri: string)     // a value exceeds its column's maximum length
    | UniqueViolation(uri: string)  // an insert reuses an existing primary key

  /** What an operation leaves behind: the new database and its outcome. */
  datatype Run<T> = Run(db: Db, result: Result<T, DbError>)

  predicate LabelFits(labelText: Option<string>) {
    labelText.None? || |labelText.value| <= LABEL_MAX_LENGTH
  }

  predicate OntologyRowOk(key: string, o: Ontology) {
    o.uri == key && |key| <= URI_MAX_LENGTH && LabelFits(o.labelText)
  }

  /** Column limits, and the `ontology` foreign key names an existing ontology. */
  predicate TermRowOk(ontologies: map<string, Ontology>, key: string, t: Term) {
    && t.uri == key
    && |key| <= URI_MAX_LENGTH
    && LabelFits(t.labelText)
    && (t.ontology.Some? ==> t.ontology.value in ontologies)
  }

  /** The constraints the schema enforces, and `order` lists each term row once. */
  predicate Consistent(db: Db) {
    && (forall u :: u in db.ontologies ==> OntologyRowOk(u, db.ontologies[u]))
    && (forall u :: u in db.terms ==> TermRowOk(db.ontologies, u, db.terms[u]))
    && NoDuplicates(db.order)
    && (forall u :: u in db.order ==> u in db.terms)
    && (forall u :: u in db.terms ==> u in db.order)
  }

  /** A new ontology row with the column defaults. */
  function NewOntology(uri: string, labelText: string): Ontology {
    Ontology(uri, Some(labelText), Some(DEFAULT_WEIGHT))
  }

  /** A new term row with the column defaults. */
  function NewTerm(uri: string, ontology: string, labelText: string, definition: string): Term {
    Term(uri, Some(ontology), Some(labelText), Some(definition), None, Some(DEFAULT_WEIGHT), false)
  }

  /** Whether an insert of these values passes the column length limits. */
  predicate Fits(uri: string, labelText: string) {
    |uri| <= URI_MAX_LENGTH && |labelText| <= LABEL_MAX_LENGTH
  }

  /**
   * `Ontology.objects.get_or_create(uri=uri, defaults={"label": label})`:
   * the lookup is by primary key only, so an existing row is returned as it
   * is and the label offered here is dropped.
   */
  function UpsertOntology(db: Db, uri: string, labelText: string): (r: Run<Ontology>)
    ensures r.db.terms == db.terms && r.db.order == db.order
    ensures uri in db.ontologies ==> r == Run(db, Success(db.ontologies[uri]))
    ensures uri !in db.ontologies ==> (r.result.Success? <==> Fits(uri, labelText))
    ensures r.result.Success? ==> uri in r.db.ontologies && r.db.ontologies[uri] == r.result.value
    ensures r.result.Success? && uri !in db.ontologies ==>
              && r.result.value.labelText == Some(labelText)
              && r.result.value.weight == Some(DEFAULT_WEIGHT)
              && r.db.ontologies == db.ontologies[uri := r.result.value]
    ensures r.result.Failure? ==> r.db == db && r.result.error == ValueTooLong(uri)
    ensures Consistent(db) ==> Consistent(r.db)
  {
    if uri in db.ontologies then Run(db, Success(db.ontologies[uri]))
    else if !Fits(uri, labelText) then Run(db, Failure(ValueTooLong(uri)))
    else
      var o := NewOntology(uri, labelText);
      Run(db.(ontologies := db.ontologies[uri := o]), Success(o))
  }

  /** The row agrees with every lookup field of the term get-or-create. */
  predicate SameRow(t: Term, ontology: string, labelText: string, definition: string) {
    t.ontology == Some(ontology) && t.labelText == Some(labelText) && t.definition == Some(definition)
  }

  /**
   * `Term.objects.get_or_create(uri=uri, ontology=ontology, label=label,
   * definition=definition)`: all four fields form the lookup, so a row with
   * this uri that differs in any of them is not found, and the insert that
   * follows collides with it on the primary key (after the column lengths,
   * which the database checks first).
   */
  function UpsertTerm(db: Db, uri: string, ontology: string, labelText: string, definition: string): (r: Run<Term>)
    ensures r.db.ontologies == db.ontologies
    ensures uri in db.terms && SameRow(db.terms[uri], ontology, labelText, definition) ==>
              r == Run(db, Success(db.terms[uri]))
    ensures uri in db.terms && !SameRow(db.terms[uri], ontology, labelText, definition) ==>
              r == Run(db, Failure(if Fits(uri, labelText) then UniqueViolation(uri) else ValueTooLong(uri)))
    ensures uri !in db.terms ==> (r.result.Success? <==> Fits(uri, labelText))
    ensures r.result.Success? ==>
              && uri in r.db.terms
              && r.db.terms[uri] == r.result.value
              && SameRow(r.result.value, ontology, labelText, definition)
    ensures r.result.Success? && uri !in db.terms ==>
              && r.result.value.weight == Some(DEFAULT_WEIGHT)
              && !r.result.value.isFavorite
              && r.result.value.subClassOf.None?
              && r.db.terms == db.terms[uri := r.result.value]
              && r.db.order == db.order + [uri]
    ensures r.result.Failure? ==> r.db == db
    ensures Consistent(db) && ontology in db.ontologies ==> Consistent(r.db)
  {
    if uri in db.terms && SameRow(db.terms[uri], ontology, labelText, definition) then
      Run(db, Success(db.terms[uri]))
    else if !Fits(uri, labelText) then Run(db, Failure(ValueTooLong(uri)))
    else if uri in db.terms then Run(db, Failure(UniqueViolation(uri)))
    else
      var t := NewTerm(uri, ontology, labelText, definition);
      AppendKeepsDistinct(db.order, uri);
      Run(db.(terms := db.terms[uri := t], order := db.order + [uri]), Success(t))
  }

  /** `order` without `uri`. */
  function Without(order: seq<string>, uri: string): (r: seq<string>)
    ensures forall u :: u in r <==> u in order && u != uri
    ensures NoDuplicates(order) ==> NoDuplicates(r)
  {
    if order == [] then []
    else
      var rest := Without(order[1..], uri);
      if order[0] == uri then rest
      else
        ConsDistinct(order[0], order[1..]);
        ConsDistinct(order[0], rest);
        assert order == [order[0]] + order[1..];
        [order[0]] + rest
  }

  /**
   * Deleting the ontology `uri`: its row goes, and the `ontology` reference
   * of every term pointing at it becomes null (on_delete=SET_NULL).
   */
  function OntologyDeleted(db: Db, uri: string): (d: Db)
    ensures d.ontologies == db.ontologies - {uri}
    ensures d.terms.Keys == db.terms.Keys && d.order == db.order
  {
    Db(
      db.ontologies - {uri},
      map u | u in db.terms ::
        if db.terms[u].ontology == Some(uri) then db.terms[u].(ontology := None) else db.terms[u],
      db.order)
  }

  /** The list-valued `subClassOf` names `uri`. */
  predicate References(t: Term, uri: string) {
    t.subClassOf.Some? && uri in t.subClassOf.value
  }

  /**
   * Deleting the term `uri`: its row goes, and the `subClassOf` of every
   * term that names it becomes null (on_delete=SET_NULL).
   */
  function TermDeleted(db: Db, uri: string): (d: Db)
    ensures d.ontologies == db.ontologies
    ensures d.terms.Keys == db.terms.Keys - {uri}
    ensures forall u :: u in d.order <==> u in db.order && u != uri
  {
    Db(
      db.ontologies,
      map u | u in db.terms && u != uri ::
        if References(db.terms[u], uri) then db.terms[u].(subClassOf := None) else db.terms[u],
      Without(db.order, uri))
  }

  /**
   * Deleting an ontology deletes no term, keeps the foreign keys valid, and
   * changes only the `ontology` column of the terms that pointed at it.
   */
  lemma OntologyDeletedSetsNull(db: Db, uri: string)
    requires Consistent(db)
    ensures var d := OntologyDeleted(db, uri);
      && Consistent(d)
      && d.ontologies == db.ontologies - {uri}
      && d.terms.Keys == db.terms.Keys
      && (forall u :: u in d.terms && db.terms[u].ontology == Some(uri) ==> d.terms[u] == db.terms[u].(ontology := None))
      && (forall u :: u in d.terms && db.terms[u].ontology != Some(uri) ==> d.terms[u] == db.terms[u])
  {
    var d := OntologyDeleted(db, uri);
    forall u | u in d.terms ensures TermRowOk(d.ontologies, u, d.terms[u]) {
      assert TermRowOk(db.ontologies, u, db.terms[u]);
    }
  }

  /**
   * Deleting a term deletes only that row, keeps the database consistent,
   * and changes only the `subClassOf` column of the terms that named it.
   */
  lemma TermDeletedSetsNull(db: Db, uri: string)
    requires Consistent(db)
    ensures var d := TermDeleted(db, uri);
      && Consistent(d)
      && d.ontologies == db.ontologies
      && d.terms.Keys == db.terms.Keys - {uri}
      && (forall u :: u in d.terms && References(db.terms[u], uri) ==> d.terms[u] == db.terms[u].(subClassOf := None))
      && (forall u :: u in d.terms && !References(db.terms[u], uri) ==> d.terms[u] == db.terms[u])
  {
  }

  /** The database, updated in place. */
  class Store {
    var ontologies: map<string, Ontology>
    var terms: map<string, Term>
    var order: seq<string>

    function State(): Db
      reads this
    {
      Db(ontologies, terms, order)
    }

    ghost predicate Valid()
      reads this
    {
      Consistent(State())
    }

    /** An empty database. */
    constructor ()
      ensures Valid()
      ensures State() == Db(map[], map[], [])
    {
      ontologies, terms, order := map[], map[], [];
    }

    method GetOrCreateOntology(uri: string, labelText: string) returns (r: Result<Ontology, DbError>)
      requires Valid()
      modifies this
      ensures Valid()
      ensures Run(State(), r) == UpsertOntology(old(State()), uri, labelText)
    {
      if uri in ontologies {
        return Success(ontologies[uri]);
      }
      if !Fits(uri, labelText) {
        return Failure(ValueTooLong(uri));
      }
      var o := NewOntology(uri, labelText);
      ontologies := ontologies[uri := o];
      return Success(o);
    }

    method GetOrCreateTerm(uri: string, ontology: string, labelText: string, definition: string)
      returns (r: Result<Term, DbError>)
      requires Valid() && ontology in ontologies
      modifies this
      ensures Valid()
      ensures Run(State(), r) == UpsertTerm(old(State()), uri, ontology, labelText, definition)
    {
      if uri in terms && SameRow(terms[uri], ontology, labelText, definition) {
        return Success(terms[uri]);
      }
      if !Fits(uri, labelText) {
        return Failure(ValueTooLong(uri));
      }
      if uri in terms {
        return Failure(UniqueViolation(uri));
      }
      var t := NewTerm(uri, ontology, labelText, definition);
      terms := terms[uri := t];
      order := order + [uri];
      assert State() == UpsertTerm(old(State()), uri, ontology, labelText, definition).db;
      return Success(t);
    }

    /** `term.save()` on a row read from this database. */
    method SaveTerm(t: Term)
      requires Valid() && t.uri in terms && TermRowOk(ontologies, t.uri, t)
      modifies this
      ensures Valid()
      ensures State() == old(State()).(terms := old(terms)[t.uri := t])
    {
      terms := terms[t.uri := t];
    }

    method DeleteOntology(uri: string)
      requires Valid()
      modifies this
      ensures Valid()
      ensures State() == OntologyDeleted(old(State()), uri)
    {
      OntologyDeletedSetsNull(State(), uri);
      terms := map u | u in terms ::
        if terms[u].ontology == Some(uri) then terms[u].(ontology := None) else terms[u];
      ontologies := ontologies - {uri};
    }

    method DeleteTerm(uri: string)
      requires Valid()
      modifies this
      ensures Valid()
      ensures State() == TermDeleted(old(State()), uri)
    {
      TermDeletedSetsNull(State(), uri);
      terms := map u | u in terms && u != uri ::
        if References(terms[u], uri) then terms[u].(subClassOf := None) else terms[u];
      order := Without(order, uri);
    }
  }
}

=== FILE: rdf.dfy ===
/**
 * The parsed document as the ingestion command sees it: a graph of
 * (subject, property, value) statements, each node given by its string
 * form, listed in the graph's iteration order. The parser itself is not part
 * of this model; a graph is an input.
 */
module Rdf {
  import opened Common

  datatype Triple = Triple(s: string, p: string, o: string)

  /** A graph in iteration order. */
  type Graph = seq<Triple>

  // The vocabulary the ingestion command queries.
  const RDF_TYPE := "http://www.w3.org/1999/02/22-rdf-syntax-ns#type"
  const OWL_ONTOLOGY := "http://www.w3.org/2002/07/owl#Ontology"
  const OWL_CLASS := "http://www.w3.org/2002/07/owl#Class"
  const DCTERMS_TITLE := "http://purl.org/dc/terms/title"
  const RDFS_LABEL := "http://www.w3.org/2000/01/rdf-schema#label"
  const RDFS_SUBCLASS_OF := "http://www.w3.org/2000/01/rdf-schema#subClassOf"
  /** The OBO "definition" annotation property. */
  const IAO_DEFINITION := "http://purl.obolibrary.org/obo/IAO_0000115"

  /** A graph is a set of statements: none occurs twice. */
  predicate WellFormed(g: Graph) {
    NoDuplicates(g)
  }

  /** `t` matches the pattern (subject, property, *). */
  predicate Matches(t: Triple, subject: string, property: string) {
    t.s == subject && t.p == property
  }

  /** `graph.subjects(property, value)`: the subject of every (*, property, value) statement, in iteration order. */
  function Subjects(g: Graph, property: string, value: string): (r: seq<string>)
    ensures |r| <= |g|
    ensures forall s :: s in r <==> Triple(s, property, value) in g
  {
    if g == [] then []
    else
      assert g == [g[0]] + g[1..];
      (if g[0].p == property && g[0].o == value then [g[0].s] else [])
      + Subjects(g[1..], property, value)
  }

  /** `graph.objects(subject, property)`: the value of every (subject, property, *) statement, in iteration order. */
  function Objects(g: Graph, subject: string, property: string): (r: seq<string>)
    ensures |r| <= |g|
    ensures forall o :: o in r <==> Triple(subject, property, o) in g
  {
    if g == [] then []
    else
      assert g == [g[0]] + g[1..];
      (if Matches(g[0], subject, property) then [g[0].o] else [])
      + Objects(g[1..], subject, property)
  }

  /** Position of the first (subject, property, *) statement in iteration order; |g| when there is none. */
  function FirstMatch(g: Graph, subject: string, property: string): (i: nat)
    ensures i <= |g|
    ensures i < |g| ==> Matches(g[i], subject, property)
    ensures forall j :: 0 <= j < i ==> !Matches(g[j], subject, property)
  {
    if g == [] then 0
    else if Matches(g[0], subject, property) then 0
    else 1 + FirstMatch(g[1..], subject, property)
  }

  /** The value of the first (subject, property, *) statement, if any. */
  function FirstObject(g: Graph, subject: string, property: string): Option<string> {
    var i := FirstMatch(g, subject, property);
    if i < |g| then Some(g[i].o) else None
  }

  /** The value of the first (subject, property, *) statement, or `default` when there is none. */
  function FirstObjectOr(g: Graph, subject: string, property: string, default: string): string {
    match FirstObject(g, subject, property)
    case Some(o) => o
    case None => default
  }

  /** The first match is the head of the list of all matches, and there is none exactly when that list is empty. */
  lemma {:induction false} FirstObjectIsHeadOfObjects(g: Graph, subject: string, property: string)
    ensures FirstObject(g, subject, property).None? <==> Objects(g, subject, property) == []
    ensures FirstObject(g, subject, property).Some? ==>
              FirstObject(g, subject, property).value == Objects(g, subject, property)[0]
  {
    if g != [] && !Matches(g[0], subject, property) {
      FirstObjectIsHeadOfObjects(g[1..], subject, property);
      assert FirstObject(g, subject, property) == FirstObject(g[1..], subject, property);
    }
  }

  /** In a well-formed graph `subjects` never yields the same subject twice. */
  lemma {:induction false} SubjectsDistinct(g: Graph, property: string, value: string)
    requires WellFormed(g)
    ensures NoDuplicates(Subjects(g, property, value))
  {
    if g != [] {
      var rest := g[1..];
      assert WellFormed(rest) by {
        forall i, j | 0 <= i < j < |rest| ensures rest[i] != rest[j] {
          assert rest[i] == g[i + 1] && rest[j] == g[j + 1];
        }
      }
      SubjectsDistinct(rest, property, value);
      if g[0].p == property && g[0].o == value {
        var s := g[0].s;
        var r := Subjects(g, property, value);
        assert r == [s] + Subjects(rest, property, value);
        forall i, j | 0 <= i < j < |r| ensures r[i] != r[j] {
          if i == 0 {
            assert r[j] in Subjects(rest, property, value);
          }
        }
      }
    }
  }
}

=== FILE: views.dfy ===
/**
 * The search endpoint: `SearchView.get` validates the `query` parameter and
 * filters the term rows by a full-text match on uri, label and definition.
 * The endpoint only reads: every operation here is a function of the
 * database, so none can change it.
 *
 * The text-search engine is not part of this model: the match is a
 * parameter, a predicate on a row's searched fields and the query.
 */
module Views {
  import opened Common
  import opened Models

  const QUERY_REQUIRED := "Query parameter 'query' is required."

  /** The response of the endpoint: the error body, or the serialized rows. */
  datatype Response = BadRequest(error: string) | Ok(terms: seq<Term>)

  /** HTTP status of a response. */
  function Status(r: Response): (code: nat)
    ensures code == 400 <==> r.BadRequest?
    ensures code == 200 <==> r.Ok?
  {
    match r
    case BadRequest(_) => 400
    case Ok(_) => 200
  }

  /** The fields `SearchVector("uri", "label", "definition")` indexes; a null field contributes nothing. */
  function SearchDocument(t: Term): seq<string> {
    [t.uri,
     match t.labelText case Some(s) => s case None => "",
     match t.definition case Some(s) => s case None => ""]
  }

  /** The term rows in the order the database reads them back. */
  function Rows(db: Db, keys: seq<string>): (r: seq<Term>)
    ensures forall u :: u in keys && u in db.terms ==> db.terms[u] in r
    ensures forall t :: t in r ==> t in db.terms.Values
  {
    if keys == [] then []
    else if keys[0] in db.terms then [db.terms[keys[0]]] + Rows(db, keys[1..])
    else Rows(db, keys[1..])
  }

  /** `filter(search=query)` over rows in a given order. */
  function Matching(rows: seq<Term>, query: string, matches: (seq<string>, string) -> bool): (r: seq<Term>)
    ensures forall t :: t in r <==> t in rows && matches(SearchDocument(t), query)
    ensures IsSubsequence(r, rows)
    ensures r == [] <==> forall t :: t in rows ==> !matches(SearchDocument(t), query)
  {
    if rows == [] then []
    else if matches(SearchDocument(rows[0]), query) then [rows[0]] + Matching(rows[1..], query, matches)
    else Matching(rows[1..], query, matches)
  }

  /**
   * `SearchView.get` as written. `query` is the request's `query` parameter,
   * None when it is absent. A missing or empty query is a bad request and no
   * row is looked up; otherwise the response lists every matching row. The
   * `order_by` call builds an ordered query set that is never used, so the
   * rows come in the database's order.
   */
  function Search(db: Db, query: Option<string>, matches: (seq<string>, string) -> bool): (r: Response)
    ensures r.BadRequest? <==> query.None? || query.value == ""
    ensures r.BadRequest? ==> r.error == QUERY_REQUIRED && Status(r) == 400
    ensures r.Ok? ==> Status(r) == 200
    ensures r.Ok? ==> forall t :: t in r.terms ==> t in db.terms.Values && matches(SearchDocument(t), query.value)
    ensures r.Ok? ==> forall u :: u in db.order && u in db.terms && matches(SearchDocument(db.terms[u]), query.value) ==>
                        db.terms[u] in r.terms
    ensures r.Ok? ==> IsSubsequence(r.terms, Rows(db, db.order))
  {
    if query.None? || query.value == "" then BadRequest(QUERY_REQUIRED)
    else Ok(Matching(Rows(db, db.order), query.value, matches))
  }

  /** A non-empty query that matches no stored row gives an empty list with status 200. */
  lemma NoMatchIsEmptyOk(db: Db, query: string, matches: (seq<string>, string) -> bool)
    requires query != ""
    requires forall u :: u in db.terms ==> !matches(SearchDocument(db.terms[u]), query)
    ensures Search(db, Some(query), matches) == Ok([])
  {
    forall t | t in Rows(db, db.order) ensures !matches(SearchDocument(t), query) {
      var u :| u in db.terms && db.terms[u] == t;
    }
  }

  // ---------------------------------------------------------------------
  // The ranking the endpoint evidently means to apply

  /** Text order as the database's "C" collation compares it: by code point, a prefix first. */
  predicate StrLeq(s: string, t: string) {
    s == [] || (t != [] && (s[0] < t[0] || (s[0] == t[0] && StrLeq(s[1..], t[1..]))))
  }

  lemma {:induction false} StrLeqTotal(s: string, t: string)
    ensures StrLeq(s, t) || StrLeq(t, s)
  {
    if s != [] && t != [] && s[0] == t[0] {
      StrLeqTotal(s[1..], t[1..]);
    }
  }

  lemma {:induction false} StrLeqTransitive(a: string, b: string, c: string)
    requires StrLeq(a, b) && StrLeq(b, c)
    ensures StrLeq(a, c)
  {
    if a != [] && b != [] && c != [] && a[0] == b[0] && b[0] == c[0] {
      StrLeqTransitive(a[1..], b[1..], c[1..]);
    }
  }

  /** `weight` descending, where a null weight sorts first (the database's default for a descending key). */
  predicate WeightBefore(x: Option<real>, y: Option<real>) {
    x.None? || (y.Some? && x.value > y.value)
  }

  /** `label` ascending, where a null label sorts last (the database's default for an ascending key). */
  predicate LabelLeq(x: Option<string>, y: Option<string>) {
    y.None? || (x.Some? && StrLeq(x.value, y.value))
  }

  /** `a` may be listed before `b`: favourites first, then higher weight, then label. */
  predicate RankLeq(a: Term, b: Term) {
    if a.isFavorite != b.isFavorite then a.isFavorite
    else if a.weight != b.weight then WeightBefore(a.weight, b.weight)
    else LabelLeq(a.labelText, b.labelText)
  }

  lemma RankLeqTotal(a: Term, b: Term)
    ensures RankLeq(a, b) || RankLeq(b, a)
  {
    if a.isFavorite == b.isFavorite && a.weight == b.weight && a.labelText.Some? && b.labelText.Some? {
      StrLeqTotal(a.labelText.value, b.labelText.value);
    }
  }

  lemma RankLeqTransitive(a: Term, b: Term, c: Term)
    requires RankLeq(a, b) && RankLeq(b, c)
    ensures RankLeq(a, c)
  {
    if a.isFavorite == b.isFavorite == c.isFavorite && a.weight == b.weight == c.weight
       && a.labelText.Some? && b.labelText.Some? && c.labelText.Some? {
      StrLeqTransitive(a.labelText.value, b.labelText.value, c.labelText.value);
    }
  }

  predicate Ranked(s: seq<Term>) {
    forall i, j :: 0 <= i < j < |s| ==> RankLeq(s[i], s[j])
  }

  /** The tail of a ranked list is ranked, and its head ranks no later than any of it. */
  lemma RankedTail(s: seq<Term>)
    requires Ranked(s) && s != []
    ensures Ranked(s[1..])
    ensures forall y :: y in s[1..] ==> RankLeq(s[0], y)
  {
    forall i, j | 0 <= i < j < |s| - 1 ensures RankLeq(s[1..][i], s[1..][j]) {
      assert s[1..][i] == s[i + 1] && s[1..][j] == s[j + 1];
    }
  }

  /** Putting in front of a ranked list a row that ranks no later than any of it keeps it ranked. */
  lemma RankedCons(x: Term, s: seq<Term>)
    requires Ranked(s) && forall y :: y in s ==> RankLeq(x, y)
    ensures Ranked([x] + s)
  {
    forall i, j | 0 <= i < j < |s| + 1 ensures RankLeq(([x] + s)[i], ([x] + s)[j]) {
      assert ([x] + s)[j] == s[j - 1];
      if i > 0 {
        assert ([x] + s)[i] == s[i - 1];
      } else {
        assert s[j - 1] in s;
      }
    }
  }

  /** Insert `t` into ranked rows, after every row that ranks strictly before it. */
  function Insert(t: Term, s: seq<Term>): (r: seq<Term>)
    requires Ranked(s)
    ensures Ranked(r)
    ensures multiset(r) == multiset(s) + multiset{t}
  {
    if s == [] then [t]
    else
      assert s == [s[0]] + s[1..];
      RankedTail(s);
      if RankLeq(t, s[0]) then
        assert forall y :: y in s ==> RankLeq(t, y) by {
          forall y | y in s ensures RankLeq(t, y) {
            if y != s[0] {
              RankLeqTransitive(t, s[0], y);
            }
          }
        }
        RankedCons(t, s);
        [t] + s
      else
        var rest := Insert(t, s[1..]);
        assert forall x :: x in rest ==> RankLeq(s[0], x) by {
          forall x | x in rest ensures RankLeq(s[0], x) {
            if x == t {
              RankLeqTotal(t, s[0]);
            } else {
              assert x in multiset(rest);
              assert x in multiset(s[1..]);
            }
          }
        }
        RankedCons(s[0], rest);
        [s[0]] + rest
  }

  /** The rows sorted by rank: an insertion sort. */
  function Rank(s: seq<Term>): (r: seq<Term>)
    ensures Ranked(r)
    ensures multiset(r) == multiset(s)
  {
    if s == [] then []
    else
      assert s == [s[0]] + s[1..];
      Insert(s[0], Rank(s[1..]))
  }

  /**
   * The endpoint with the ordering applied: the same validation and the same
   * rows, listed favourites first, then by weight descending (null first),
   * then by label ascending (null last).
   */
  function RankedSearch(db: Db, query: Option<string>, matches: (seq<string>, string) -> bool): (r: Response)
    ensures r.BadRequest? <==> Search(db, query, matches).BadRequest?
    ensures r.BadRequest? ==> r == Search(db, query, matches)
    ensures r.Ok? ==> Ranked(r.terms) && multiset(r.terms) == multiset(Search(db, query, matches).terms)
  {
    match Search(db, query, matches)
    case BadRequest(e) => BadRequest(e)
    case Ok(rows) => Ok(Rank(rows))
  }

  /** In a ranked list no row that is not a favourite comes before a favourite. */
  lemma FavoritesFirst(s: seq<Term>, i: nat, j: nat)
    requires Ranked(s) && i < j < |s| && s[j].isFavorite
    ensures s[i].isFavorite
  {
    assert RankLeq(s[i], s[j]);
  }

  /** In a ranked list, among rows of equal favourite status the weight does not increase. */
  lemma WeightsDescend(s: seq<Term>, i: nat, j: nat)
    requires Ranked(s) && i < j < |s| && s[i].isFavorite == s[j].isFavorite
    requires s[i].weight.Some? && s[j].weight.Some?
    ensures s[i].weight.value >= s[j].weight.value
  {
    assert RankLeq(s[i], s[j]);
  }

  /** An ordinary term of weight 10. */
  function Heavy(): Term {
    Term("http://example.org/a", None, Some("a"), None, None, Some(10.0), false)
  }

  /** A favourite term of weight 1. */
  function Favorite(): Term {
    Term("http://example.org/b", None, Some("b"), None, None, Some(1.0), true)
  }

  /** A database holding both, the ordinary one read first. */
  function HeavyThenFavorite(): Db {
    Db(map[], map[Heavy().uri := Heavy(), Favorite().uri := Favorite()], [Heavy().uri, Favorite().uri])
  }

  /** A text match that accepts every row. */
  function MatchAll(doc: seq<string>, query: string): bool {
    true
  }

  /**
   * Two rows that both match: the ordinary term of weight 10 read first and
   * the favourite of weight 1 read second. The endpoint as written lists the
   * ordinary term first; with the ordering applied the favourite comes first.
   */
  lemma DiscardedOrderingExample()
    ensures Search(HeavyThenFavorite(), Some("x"), MatchAll) == Ok([Heavy(), Favorite()])
    ensures RankedSearch(HeavyThenFavorite(), Some("x"), MatchAll) == Ok([Favorite(), Heavy()])
  {
    var a, b, db := Heavy(), Favorite(), HeavyThenFavorite();
    assert db.order[1..] == [b.uri] && [b.uri][1..] == [];
    assert Rows(db, [b.uri]) == [b];
    assert Rows(db, db.order) == [a, b];
    assert [a, b][1..] == [b] && [b][1..] == [];
    assert Matching([b], "x", MatchAll) == [b];
    assert Matching([a, b], "x", MatchAll) == [a, b];
    assert !RankLeq(a, b);
    assert Rank([b]) == [b];
    assert Insert(a, [b]) == [b, a];
  }
}
